=== FILE: README.md ===
# Social profiles and posts: a Dafny model

This project models the `social` app of a small social-network API built with
Django REST Framework. Users have one **profile** each (name, avatar,
biography, gender, and the set of users they follow). They write **posts**
(title, content, media link, hashtag, creation time). The model covers:

- two object permissions: anyone may read, only the owner may write;
- two viewsets and what they do per action:
  - `get_queryset` with its query-parameter filters;
  - `get_object`;
  - `perform_create`, which stamps ownership;
  - `get_serializer_class`, which picks the serializer for each action;
- six serializers:
  - their field tuples and read-only fields;
  - the derived fields: follower and post counts, and the follower and following name lists;
  - validation of request bodies;
- the `Profile` and `Post` records: gender choices, `full_name`, `__str__`, the one-to-one user link, field bounds, cascading deletes, and newest-first ordering.

Modules, in dependency order:

| file | module | contents |
|---|---|---|
| `outcomes.dfy` | `Outcomes` | `Option`, `Result`, and the error kinds: not found, forbidden, validation failed, missing profile, existing profile |
| `text.dfy` | `Text` | ASCII case folding and the case-insensitive substring test behind `__icontains` |
| `seqs.dfy` | `Seqs` | narrowing by a predicate (`filter`), `distinct()`, descending sort, first-match lookup |
| `models.dfy` | `Models` | `Profile`, `Post`, `Gender`, `Store`; `Valid` (database integrity) and `Bounded` (serializer field bounds); the six store writes |
| `permissions.dfy` | `Permissions` | `IsProfileOwnerOrReadOnly`, `IsPostOwnerOrReadOnly` |
| `queries.dfy` | `Queries` | the two `get_queryset` methods and their reference meaning |
| `serializers.dfy` | `Serializers` | shapes, field tuples, writable fields, derived fields, rendering, body validation |
| `views.dfy` | `Views` | action → HTTP method and serializer shape; the list, retrieve, create, update and destroy pipelines |
| `scenarios.dfy` | `Scenarios` | concrete stores and requests taken from the repository's API tests |

How requests are modelled:

- A request is a function from a store to a `Result`. A failed write leaves the store unchanged; a successful one returns the new store and the saved object.
- The acting user and the clock reading are parameters.
- A detail request first looks its id up in the **filtered** queryset, as `get_object` does.
  - An id not found there is `NotFound`.
  - Otherwise the object permission is checked, and a non-owner's write is `Forbidden`.
  - Only then is the body validated.
- The store's invariant `Valid` combines what the database guarantees with one application invariant.
  - The database guarantees unique primary keys, at most one profile per user (the one-to-one link), and that followed and owning users and every post's `profile` exist.
  - Each table's implicit `id` is an auto-increment key. The store carries the next value of each id sequence, and every stored id lies below it. A new row takes that value and moves the sequence on; deleting a row leaves it where it is, so a deleted row's id is never handed out again.
  - The application keeps every post's `profile` belonging to the post's `author`: `perform_create` sets both from the caller (social/views.py:96-98), and both are read-only in the serializers (social/serializers.py:115-118). The schema does not enforce this, and a post created directly through the ORM may break it.

  Every write preserves `Valid`. `Bounded` adds the serializer field bounds. Writes made through the API preserve `Bounded` as well. The repository's test fixtures bypass the serializers, which is why the two are kept apart.
- A create body with only `title` and `content` is refused: `media_attachments` is a required URL field (`Scenarios.CreatePostScenario`).
- `partial_update` is neither "create" nor "update", so it uses the class default serializer. For profiles that is the summary `ProfileSerializer`, through which a PATCH can change only `avatar` and `gender` (`Views.ActionShapes`).
- `get_following` raises for a followed user without a profile. The model reports that retrieve as `ProfileMissing`.

## Model

| member | source | states |
|---|---|---|
| `Models.ParseGender` | social/models.py:8-11 | A string is accepted as a gender exactly when it is the stored value of one of the three choices "Female", "Male", "unknown". |
| `Models.FullName` | social/models.py:28-30 | `full_name` is the first name, then exactly one space, then the last name, and its length is the sum of those parts. |
| `Models.ProfileStr` | social/models.py:25-26 | `__str__`, built with `+`, renders the same string as `full_name`. |
| `Models.ProfileOfUser` | social/models.py:13-15 | The reverse accessor `user.profiles` either returns a stored profile of that user, or reports none when no stored profile belongs to the user. |
| `Models.ProfileOfUserFinds` | social/models.py:13-15 | Under the one-to-one link, the reverse accessor returns exactly the user's own profile. |
| `Models.PostsNewestFirst` | social/models.py:42-43 | Default ordering: the result is ordered by `created_at` from newest to oldest and is a permutation of the posts. |
| `Models.AddProfile` | social/models.py:13-23 | Saving a new profile for a user without one, under the next id of the sequence, keeps the store valid and moves the sequence past that id. The profile becomes findable by id and by its user, it is the only new profile, and posts and users are untouched. |
| `Models.ReplaceProfile` | social/models.py:7-23 | Saving a profile with unchanged id and user keeps the store valid and the id sequences unchanged. Every other profile stays at its place, and the saved profile is the one found by its id. |
| `Models.RemoveProfile` | social/models.py:39 | Deleting a profile keeps the store valid and the id sequences unchanged, and keeps exactly the other profiles. The `CASCADE` on `Post.profile` keeps exactly the posts not attached to it. |
| `Models.AddPost` | social/models.py:33-40 | Saving a new post under the next id of the sequence, whose profile belongs to its author, keeps the store valid, moves the sequence past that id and adds exactly that post. |
| `Models.ReplacePost` | social/models.py:33-40 | Saving a post with unchanged id, author and profile keeps the store valid and the id sequences unchanged, and changes only that post. |
| `Models.RemovePost` | social/models.py:33-40 | Deleting a post keeps the store valid and the id sequences unchanged, and keeps exactly the posts with other ids. |
| `Permissions.ProfilePermission` | social/permissions.py:4-9 | Allowed if and only if the method is GET, HEAD or OPTIONS, or the actor is the profile's user. |
| `Permissions.PostPermission` | social/permissions.py:12-17 | Allowed if and only if the method is safe or the actor is the post's author. |
| `Permissions.SafeMethodsAdmitted` | social/permissions.py:4-17 | A safe method is admitted for every actor on every profile and post. |
| `Permissions.NonOwnerWritesDenied` | social/permissions.py:4-17 | PUT, PATCH and DELETE by anyone but the owner are denied, for profiles and posts alike. |
| `Permissions.DecisionDependsOnlyOnOwner` | social/permissions.py:4-17 | The decision depends on the method, the actor and the owner only. Objects with the same owner get the same answer, whether profile or post. |
| `Text.Contains` | social/views.py:31-35 | The substring test holds exactly when the needle occurs at some offset of the haystack. |
| `Text.IContainsSelf` | social/views.py:31-32 | Every value contains itself. |
| `Text.IContainsTooLong` | social/views.py:34-35 | A parameter longer than the field value never matches. |
| `Text.IContainsIgnoresCase` | social/views.py:88-92 | Lower-casing the field value or the parameter never changes whether `__icontains` matches. |
| `Seqs.Narrow` | social/views.py:31-38 | A `filter` keeps exactly the elements satisfying the predicate and never grows the list. |
| `Seqs.NarrowFuse` | social/views.py:31-38 | Two successive filters equal one filter by their conjunction. |
| `Seqs.NarrowCommutes` | social/views.py:31-38 | The order in which filters are applied does not matter. |
| `Seqs.Distinct` | social/views.py:40 | `distinct()` keeps exactly the same members, without duplicates, and never grows the list. |
| `Seqs.SortDesc` | social/models.py:42-43 | The ordering produces a sequence in descending key order that is a permutation of its input. |
| `Seqs.SortDescOfSorted` | social/models.py:42-43 | Ordering a list that is already newest-first leaves it unchanged. |
| `Queries.ProfileQueryset` | social/views.py:24-40 | A profile is listed if and only if it is stored and matches every supplied parameter: `first_name` and `last_name` by case-insensitive containment, `gender` by exact value. The list has no duplicates. |
| `Queries.PostQueryset` | social/views.py:82-94 | A post is listed if and only if it is stored and matches every supplied `hashtag`/`title` parameter case-insensitively. The list has no duplicates and runs newest first. |
| `Queries.ProfileQuerysetIsOnePass` | social/views.py:29-40 | On a table without duplicate rows, the three successive filters plus `distinct()` equal one pass that keeps the profiles matching the conjunction of the supplied parameters. |
| `Queries.ProfileQuerysetIdempotent` | social/views.py:24-40 | Filtering the filtered profile list again with the same parameters changes nothing. |
| `Queries.PostQuerysetIdempotent` | social/views.py:82-94 | Filtering the filtered post list again with the same parameters changes nothing. |
| `Queries.NoParamsListAllProfiles` | social/views.py:31-38 | With every parameter absent or empty, the list is exactly the stored profiles in store order, given no duplicate rows. |
| `Queries.UnknownGenderSelectsNothing` | social/views.py:37-38 | A `gender` value that is none of the three choices selects no profile, without an error. |
| `Serializers.FieldTuples` | social/serializers.py:7-118 | Each of the six serializers renders exactly the names of its `Meta.fields` tuple, in order. |
| `Serializers.WritableIsListedMinusReadOnly` | social/serializers.py:7-118 | The fields a body may set are exactly the listed fields that are not read-only. |
| `Serializers.OwnershipNeverWritable` | social/serializers.py:71-118 | No shape lets a body set a profile's `user` or a post's `author` or `profile`. The create-update profile shape has no counts. |
| `Serializers.AuthorWritableAsWritten` | social/serializers.py:84-99 | As written, the writable fields of `PostSerializer` include `author`, unlike the corrected shape. |
| `Serializers.FollowersCount` | social/serializers.py:22-24 | `followers_count` is the number of stored profiles whose `following` contains this profile's user. |
| `Serializers.PostsCount` | social/serializers.py:26-28 | `posts_count` is the number of stored posts attached to this profile. |
| `Serializers.FollowerNames` | social/serializers.py:58-62 | `followers` has one entry per follower profile: each name occurs exactly as often as there are stored profiles that follow the user and carry that full name. So there are as many names as `followers_count`, every follower's full name is among them, and nothing but followers' full names. |
| `Serializers.FollowingNames` | social/serializers.py:64-68 | `following` succeeds if and only if every followed user has a profile, and otherwise reports the missing profile. On success it has one entry per followed user: each name occurs exactly as often as there are followed users whose profile carries that full name. Every followed user's profile's full name is among the entries, and every entry is the full name of some followed user's profile. |
| `Serializers.FollowedProfilesCount` | social/serializers.py:64-68 | Under the one-to-one link there is exactly one followed profile per followed user. |
| `Serializers.RenderProfile` | social/serializers.py:7-81 | A rendered profile's keys are exactly its serializer's field names in order. Only the detail shape can fail, and only when a followed user lacks a profile. |
| `Serializers.RenderPost` | social/serializers.py:31-118 | A rendered post's keys are exactly its serializer's field names in order. |
| `Serializers.FollowerNameMultiplicity` | social/serializers.py:58-62 | The follower names list each name once per follower profile that carries it, because stored profiles are distinct. |
| `Serializers.FollowedNameMultiplicity` | social/serializers.py:64-68 | The followed names list each name once per followed user whose profile carries it, because the one-to-one link pairs each followed profile with one followed user. |
| `Serializers.DetailValues` | social/serializers.py:37-55 | The detail rendering shows the profile's own `id`, `user`, `first_name`, `last_name`, `avatar`, `biography` and stored `gender` value. |
| `Serializers.DetailLists` | social/serializers.py:37-68 | The detail rendering's `posts` are the profile's posts newest first, `following` is `get_following` and `followers` is `get_followers`. |
| `Serializers.SummaryValues` | social/serializers.py:7-28 | In the list shape, `full_name` is the full name, and `followers_count` and `posts_count` are the sizes of the follower and post sets. |
| `Serializers.PostAuthorLabel` | social/serializers.py:85 | The `author` label of the full post shape, read through `profile.full_name`, is the full name of the author's own profile, because a valid store attaches every post to its author's profile. |
| `Serializers.ReadText` | social/models.py:16-40 | A text field is accepted exactly when the body sends a string the field's blank and length rule admits, or leaves out a field that a PATCH need not send or that may be blank. An accepted field is the value sent; a missing one keeps the current value. Errors name the field. |
| `Serializers.ReadGender` | social/models.py:20 | A gender is accepted exactly when the body sends one of the three stored values, or leaves it out of a PATCH. An accepted gender is the choice whose stored value was sent; a missing one keeps the current choice. Errors name the `gender` field. |
| `Serializers.ReadFollowing` | social/models.py:21-23 | `following` is accepted exactly when the body leaves it out or sends a set of registered users. An accepted set is the one sent; a missing one keeps the current set. Errors name the field. |
| `Serializers.ApplyProfileBody` | social/serializers.py:71-81 | A body applies exactly when every writable field of the shape is admissible, whatever the profile. Applying it never changes the profile's id or user. Each writable field the body carries takes the sent value: the text, the gender choice, or the set of followed users. Every other field, whether read-only or absent from a PATCH, keeps its value. Every failure is a validation error. |
| `Serializers.ApplyPostBody` | social/serializers.py:102-118 | A body applies exactly when every writable field of the shape is admissible, whatever the post. Applying it never changes a post's id, author, profile or creation time. Each of `title`, `content`, `media_attachments` and `hashtag` takes the sent value when the shape writes it and the body carries it, and keeps its value otherwise. Every failure is a validation error. |
| `Serializers.ProfileBodyIgnoresReadOnly` | social/serializers.py:7-81 | Two bodies that agree on the shape's writable keys give the same outcome, whatever else they carry. |
| `Serializers.PostBodyIgnoresReadOnly` | social/serializers.py:84-118 | Two bodies that agree on the shape's writable keys give the same outcome, whatever else they carry. |
| `Serializers.ProfileBodyValid` | social/models.py:16-23 | A body accepted for a full create or update yields a profile within the model's bounds. Names are non-blank and at most 255 characters, the avatar is at most 255, and every followed user is registered. A partial update keeps a profile that was within bounds. |
| `Serializers.PostBodyValid` | social/models.py:35-40 | An accepted body yields a post whose title is non-blank and at most 70 characters and whose hashtag is at most 50. For a PATCH this holds when the post was already within bounds; a kept hashtag must already be within 50. |
| `Serializers.FullProfileBodyFields` | social/serializers.py:71-81 | A full profile body must carry `first_name`, `last_name`, `avatar` and `gender`, and the saved values are the ones sent. |
| `Serializers.FullPostBodyFields` | social/serializers.py:102-118 | A full post body must carry `title`, `content` and `media_attachments`, and the saved values are the ones sent. |
| `Serializers.EmptyProfilePatchKeeps` | social/serializers.py:7-20 | A partial profile update with an empty body succeeds and leaves the profile as it was. |
| `Serializers.EmptyPostPatchKeeps` | social/serializers.py:84-99 | A partial post update with an empty body succeeds and leaves the post as it was. |
| `Serializers.PostBodyIgnoresAuthor` | social/serializers.py:97-99 | With `author` read-only, adding an `author` key to a post body never changes the outcome. |
| `Serializers.PostBodyIgnoresOwnership` | social/serializers.py:115-118 | Client-sent `id`, `author` and `profile` keys never change the outcome of a post body. |
| `Serializers.ProfileBodyIgnoresOwnership` | social/serializers.py:71-81 | Client-sent `id` and `user` keys never change the outcome of a profile body. |
| `Serializers.ApplyPostBodyAsWritten` | social/serializers.py:84-99 | As written, a `PostSerializer` body carrying `author` always fails. A blank string or a list fails validation of `author`. Any other value passes that field, so the request fails on the nested write exactly when the other fields are admissible. A PATCH without `author`, or a body for another shape, behaves as in the corrected model. |
| `Views.SafeVerbs` | social/permissions.py:6-7 | Exactly the list and retrieve actions are routed from safe methods. |
| `Views.ProfileShapeFor` | social/views.py:45-52 | The detail serializer is used if and only if the action is retrieve, and the create-update serializer if and only if it is create or update. The summary serializer covers everything else. |
| `Views.PostShapeFor` | social/views.py:100-107 | The create-update serializer is used if and only if the action is create or update, and `PostSerializer` otherwise. |
| `Views.ActionShapes` | social/views.py:45-52 | A partial update uses the list serializer, so a profile PATCH can write only `avatar` and `gender`. Post list, retrieve and PATCH share one shape. No action lets a body set ownership. |
| `Views.SummaryRow` | social/serializers.py:7-28 | A profile list row shows the profile's id and full name, and the sizes of the follower and post sets as the two counts. |
| `Views.ListProfiles` | social/views.py:24-40 | The profile list has one summary row per queryset entry, in order. Each row shows that profile's id and full name, its follower count as the number of profiles following its user, and its post count as the number of posts attached to it. |
| `Views.FullRow` | social/serializers.py:84-96 | A post row shows the post's id. Its `author` is the full name of the author's profile, which exists in a valid store. |
| `Views.ListPosts` | social/views.py:82-94 | The post list has one row per queryset entry, in queryset order. Each row shows that post's id, and is labelled with the full name of its author's profile, which exists. |
| `Views.FindProfile` | social/views.py:24-40 | `get_object` returns a profile of the filtered queryset with the requested id, and reports not found exactly when there is none. |
| `Views.FindPost` | social/views.py:82-94 | `get_object` returns a post of the filtered queryset with the requested id, and reports not found exactly when there is none. |
| `Views.RetrieveProfile` | social/views.py:45-47 | Retrieve is never forbidden. It succeeds exactly when a visible profile has the id and every user it follows has a profile, and it then shows the detail rendering of that profile. It fails as not found exactly when no visible profile has the id, and otherwise reports the missing profile. It shows the requested id. |
| `Views.RetrievePost` | social/views.py:100-102 | Retrieve is never forbidden and fails exactly when no visible post has the id. It shows the requested id and labels the post found with the full name of its author's profile. |
| `Views.CreateProfile` | social/views.py:42-43 | A created profile belongs to the caller, takes the next id of the sequence, and is found through the caller's user. A caller who already has a profile is refused. Otherwise creation succeeds exactly when the body is admissible for the create serializer, and the new profile is that body applied to a blank profile of the caller. The store stays valid and gains exactly that profile. |
| `Views.CreatePost` | social/views.py:96-98 | A created post takes the next id of the sequence and has the caller as author, the caller's profile as profile, and the clock reading as creation time. A caller without a profile is refused. Otherwise creation succeeds exactly when the body is admissible for the create serializer, and the new post is that body applied to a blank post of the caller, linked to the caller's profile. The store stays valid and gains exactly that post. |
| `Views.CreateProfileIgnoresClientOwnership` | social/views.py:42-43 | Whatever `id` and `user` the client sends, profile creation has the same outcome. |
| `Views.CreatePostIgnoresClientOwnership` | social/views.py:96-98 | Whatever `id`, `author` and `profile` the client sends, post creation has the same outcome. |
| `Views.UpdateProfile` | social/views.py:16-52 | `get_object` on the filtered queryset, `IsProfileOwnerOrReadOnly` (social/permissions.py:4-9), then the action's serializer. Only the owner's update succeeds, and it succeeds exactly when the body is admissible for the action's serializer. The saved profile is the body applied to the profile found. An id missing from the queryset is not found, another user's profile is forbidden, and every other failure is a validation error. On success the store stays valid and only that profile changes. |
| `Views.UpdatePost` | social/views.py:77-107 | `get_object` on the filtered queryset, `IsPostOwnerOrReadOnly` (social/permissions.py:12-17), then the action's serializer. The corrected update, with `author` read-only; `Views.PartialUpdatePostAsWritten` models the code as written, whose PATCH carrying `author` fails (see Findings). Only the author's update succeeds, and it succeeds exactly when the body is admissible for the action's serializer. The saved post is the body applied to the post found, so it keeps the post's id, author, profile and creation time. The errors are ordered not found, then forbidden, then validation. On success the store stays valid and only that post changes. |
| `Views.DestroyProfile` | social/views.py:16-43 | `get_object` on the filtered queryset, then `IsProfileOwnerOrReadOnly` (social/permissions.py:4-9). Exactly the owner may delete: the owner's request on a visible profile succeeds. Deletion removes exactly that profile and, by cascade, exactly its posts, and leaves the id sequences alone. Not found comes before forbidden. |
| `Views.DestroyPost` | social/views.py:77-98 | `get_object` on the filtered queryset, then `IsPostOwnerOrReadOnly` (social/permissions.py:12-17). Exactly the author may delete: the author's request on a visible post succeeds. Deletion removes exactly that post and leaves the profiles and the id sequences alone. Not found comes before forbidden. |
| `Views.NonOwnerProfileWritesForbidden` | social/tests/test_social_media_api.py:152-177 | PUT, PATCH or DELETE on a visible profile of another user is forbidden, whatever the body. |
| `Views.DeletedProfileIdNotReused` | social/models.py:7 | After a profile is deleted, a profile created next gets a larger id, never the deleted one. |
| `Views.DeletedPostIdNotReused` | social/models.py:33 | After a post is deleted, a post created next gets a larger id, never the deleted one. |
| `Views.NonOwnerPostWritesForbidden` | social/tests/test_social_media_api.py:241-268 | PUT, PATCH or DELETE on a visible post of another user is forbidden, whatever the body. |
| `Views.UpdatePostIgnoresClientOwnership` | social/serializers.py:84-118 | With `author` and `profile` read-only, client-sent `id`, `author` and `profile` keys never change the outcome of a post update. |
| `Views.UpdatePostIgnoresAuthor` | social/serializers.py:97-99 | With `author` read-only, an `author` key never changes the outcome of a post update. |
| `Views.OwnerEmptyPatchKeepsPost` | social/views.py:100-107 | The author's PATCH with an empty body succeeds and returns the post unchanged. |
| `Views.PartialUpdatePostAsWritten` | social/serializers.py:84-99 | As written, a post PATCH carrying `author` fails. Without `author` it behaves as the corrected update. |
| `Scenarios.GenderFilterScenario` | social/tests/test_social_media_api.py:71-92 | `gender=Female` lists the female profile and neither the male nor the unknown one. |
| `Scenarios.LastNameFilterScenario` | social/tests/test_social_media_api.py:117-138 | `last_name=Lastone` lists "Lastone" and neither "Lasttwo" nor "Last". |
| `Scenarios.TitleFilterScenario` | social/tests/test_social_media_api.py:201-214 | `title=title1` lists "title1" and neither "title2" nor "title3". |
| `Scenarios.CaseInsensitiveScenario` | social/views.py:91-92 | `title=ABC` matches a post titled "abc123". |
| `Scenarios.FollowingScenario` | social/serializers.py:64-68 | Jane follows John, so Jane's `following` list is exactly ["John Roe"]. |
| `Scenarios.FollowersScenario` | social/serializers.py:58-62 | John's `followers` list is exactly ["Jane Doe"] and John's follower count is 1. |
| `Scenarios.NonOwnerScenario` | social/tests/test_social_media_api.py:152-177 | John may neither update nor delete Jane's profile or post. |
| `Scenarios.RecreateProfileScenario` | social/views.py:42-43 | Ann deletes profile 3 and creates a new one, which gets id 4, not the freed 3. |
| `Scenarios.CreatePostScenario` | social/views.py:96-98 | Jane's new post has Jane as author and is attached to Jane's profile. The same body without `media_attachments` is refused on that field. |
| `Scenarios.AuthorPatchAsWrittenScenario` | social/serializers.py:84-99 | As written, the author's PATCH `{"author": …}` on their own post fails. |
| `Scenarios.AuthorPatchScenario` | social/serializers.py:84-99 | With `author` read-only, the same PATCH succeeds and returns the post unchanged. |

## Left out

- HTTP, authentication and the token layer. The acting user is a parameter, and anonymous requests are not modelled: every actor is taken to be a registered user.
- The user model and `UserSerializer`: the nested `user` field renders as an opaque user reference. The user module is not part of this model.
- `prefetch_related`, the `extend_schema` decorators and the `list` overrides. They only pass through to the framework and change no result.
- URL routing, pagination and response status codes. Errors are the abstract kinds of `Outcomes.Error`.
- `Post.__str__` (social/models.py:45-46): it returns the title and nothing depends on it.
- The order in which the database returns the many-to-many `following` and `followers` rows. The name lists are stated as contents with the multiplicity of each name, not as a particular order.
- Response bodies of create and update: the model returns the saved object, not its rendering.
- The clock: `created_at` is a parameter (`now`) of post creation.
- Database failures other than the one-to-one link. A second profile for the same user becomes `ProfileExists`.
- Serializers.ReadText: `avatar` and `media_attachments` are checked for blankness and length only, not URL syntax. DRF's whitespace trimming of character fields is not modelled. Nor is DRF's `CharField` coercion of a JSON number to its string form (`{"title": 5}` saves "5"): the model refuses every non-string value. None of these changes any ownership, filtering or counting property.
- Serializers.ReadFollowing: bodies are JSON. With a form-encoded body, DRF reads a missing many-to-many field of a full update as an empty list, so a PUT without `following` clears the set. The model keeps the current set, which is what a JSON body does.
- Stored genders: a stored gender is always one of the three choices. `Profile.objects.create` does not check `choices`, so a row created directly through the ORM could hold another string. The model cannot represent such a row.
- Serializers.ApplyProfileBody: only the first failing field is reported, where DRF collects every field error of a body.
- Serializers.ApplyPostBody: only the first failing field is reported, where DRF collects every field error of a body.
- Text.IContains: lower-casing folds ASCII letters only. PostgreSQL's `UPPER(...) LIKE UPPER(...)` behind `__icontains` folds other letters too (for example accented ones), so a search that differs from a name only in the case of such a letter matches in the database and not in the model.
- Serializers.ApplyPostBodyAsWritten: a whitespace-only `author` is treated as a non-blank string, since trimming is not modelled (see `Serializers.ReadText`). When `author` fails validation together with another field, only the `author` error is reported.
- Serializers.RenderPost: the contract states the keys only. The values that matter are stated by `Serializers.PostAuthorLabel` and `Views.FullRow`.

## Findings

| source | as written | input that shows it | evidently intended | confidence | as-written member | corrected member |
|---|---|---|---|---|---|---|
| social/serializers.py:84-99 | `PostSerializer` declares `author` explicitly, as a `CharField` with source `profile.full_name`. DRF applies `Meta.read_only_fields` only to fields it generates, so `author` stays writable, and a write through the dotted source is refused. | The author of post 1 sends `PATCH /posts/1/` with `{"author": "Someone Else"}`. `partial_update` uses `PostSerializer`, and the request fails instead of ignoring the key. | `author` is read-only, as `read_only_fields` says: the key is ignored and the PATCH succeeds, leaving the post unchanged. | medium, not executed | `Views.PartialUpdatePostAsWritten`, `Scenarios.AuthorPatchAsWrittenScenario` | `Views.UpdatePostIgnoresAuthor`, `Scenarios.AuthorPatchScenario` |

=== FILE: models.dfy ===
/** The records of the social app (`social/models.py`): Profile, Post, the
    gender choices, and the store that holds them. User ids are opaque. */
module Models {

  import opened Outcomes
  import opened Seqs

  type UserId = int

  /** `Profile.GenderChoices`: exactly three choices. */
  datatype Gender = Female | Male | Unknown

  /** The value stored and compared for each gender choice. */
  function GenderValue(g: Gender): string {
    match g
    case Female => "Female"
    case Male => "Male"
    case Unknown => "unknown"
  }

  /** Reads a choice value; anything other than the three stored values is rejected. */
  function ParseGender(s: string): (r: Option<Gender>)
    ensures forall g :: r == Some(g) <==> GenderValue(g) == s
  {
    if s == "Female" then Some(Female)
    else if s == "Male" then Some(Male)
    else if s == "unknown" then Some(Unknown)
    else None
  }

  // Field bounds from the model's `max_length` arguments.
  const NameMaxLength: nat := 255
  const UrlMaxLength: nat := 255
  const TitleMaxLength: nat := 70
  const HashtagMaxLength: nat := 50

  /** A user's extended identity; `following` holds user ids, not profiles. */
  datatype Profile = Profile(
    id: nat,
    user: UserId,
    firstName: string,
    lastName: string,
    avatar: string,
    biography: string,
    gender: Gender,
    following: set<UserId>)

  /** `created_at` is a supplied clock reading; `profile` is a Profile id. */
  datatype Post = Post(
    id: nat,
    author: UserId,
    title: string,
    content: string,
    mediaAttachments: string,
    createdAt: nat,
    profile: nat,
    hashtag: string)

  /** The `full_name` property: first name, one space, last name. */
  function FullName(p: Profile): (r: string)
    ensures |r| == |p.firstName| + 1 + |p.lastName|
    ensures r[..|p.firstName|] == p.firstName
    ensures r[|p.firstName|] == ' '
    ensures r[|p.firstName| + 1..] == p.lastName
  {
    p.firstName + " " + p.lastName
  }

  /** `Profile.__str__`, written with `+` in the source, renders the full name. */
  function ProfileStr(p: Profile): (r: string)
    ensures r == FullName(p)
  {
    p.firstName + [' '] + p.lastName
  }

  /** The persistent state: registered users, profiles and posts, and the next
      value of each table's id sequence. An `AutoField` id comes from that
      sequence (`AUTOINCREMENT` in SQLite, a sequence in PostgreSQL), which only
      grows: the id of a deleted row is never handed out again. */
  datatype Store = Store(users: set<UserId>, profiles: seq<Profile>, posts: seq<Post>, profileSeq: nat, postSeq: nat)

  function HasProfileId(id: nat): Profile -> bool {
    (p: Profile) => p.id == id
  }

  function HasUser(u: UserId): Profile -> bool {
    (p: Profile) => p.user == u
  }

  function HasPostId(id: nat): Post -> bool {
    (x: Post) => x.id == id
  }

  function LacksProfileId(id: nat): Profile -> bool {
    (p: Profile) => p.id != id
  }

  function LacksPostId(id: nat): Post -> bool {
    (x: Post) => x.id != id
  }

  /** Posts that do not hang off profile `id`: what a cascading delete keeps. */
  function NotOnProfile(id: nat): Post -> bool {
    (x: Post) => x.profile != id
  }

  function ProfileById(ps: seq<Profile>, id: nat): (r: Option<Profile>)
    ensures r.Some? ==> r.value in ps && r.value.id == id
    ensures r.None? ==> forall p :: p in ps ==> p.id != id
  {
    match IndexWhere(ps, HasProfileId(id))
    case Some(i) => Some(ps[i])
    case None => None
  }

  /** The reverse accessor of the one-to-one `user` link (`user.profiles`). */
  function ProfileOfUser(ps: seq<Profile>, u: UserId): (r: Option<Profile>)
    ensures r.Some? ==> r.value in ps && r.value.user == u
    ensures r.None? ==> forall p :: p in ps ==> p.user != u
  {
    match IndexWhere(ps, HasUser(u))
    case Some(i) => Some(ps[i])
    case None => None
  }

  function PostById(qs: seq<Post>, id: nat): (r: Option<Post>)
    ensures r.Some? ==> r.value in qs && r.value.id == id
    ensures r.None? ==> forall x :: x in qs ==> x.id != id
  {
    match IndexWhere(qs, HasPostId(id))
    case Some(i) => Some(qs[i])
    case None => None
  }

  /** The user owning the profile with this id, if there is one. */
  function ProfileOwner(ps: seq<Profile>, id: nat): Option<UserId> {
    match ProfileById(ps, id)
    case Some(p) => Some(p.user)
    case None => None
  }

  predicate ValidProfile(p: Profile) {
    && 0 < |p.firstName| <= NameMaxLength
    && 0 < |p.lastName| <= NameMaxLength
    && 0 < |p.avatar| <= UrlMaxLength
  }

  /** `title` is required and bounded; `hashtag` may be blank. */
  predicate ValidPost(q: Post) {
    && 0 < |q.title| <= TitleMaxLength
    && 0 < |q.content|
    && 0 < |q.mediaAttachments| <= UrlMaxLength
    && |q.hashtag| <= HashtagMaxLength
  }

  predicate DistinctProfileIds(a: Profile, b: Profile) {
    a.id != b.id
  }

  predicate DistinctUsers(a: Profile, b: Profile) {
    a.user != b.user
  }

  predicate DistinctPostIds(a: Post, b: Post) {
    a.id != b.id
  }

  function UserOf(p: Profile): UserId {
    p.user
  }

  predicate UniqueProfileIds(ps: seq<Profile>) {
    Pairwise(ps, DistinctProfileIds)
  }

  /** The `user` link is one-to-one: no user has two profiles. */
  predicate OneProfilePerUser(ps: seq<Profile>) {
    Pairwise(ps, DistinctUsers)
  }

  predicate UniquePostIds(qs: seq<Post>) {
    Pairwise(qs, DistinctPostIds)
  }

  /** A post's `profile` exists and belongs to the post's `author`. */
  predicate PostOwnedConsistently(s: Store, q: Post) {
    ProfileOwner(s.profiles, q.profile) == Some(q.author)
  }

  /** The store invariant. The database itself guarantees the primary keys,
      the one-to-one `user` link and foreign keys that point at existing rows.
      That a post's `profile` belongs to its `author` is an invariant of the
      application instead: `perform_create` sets both from the caller and the
      serializers never write them, but a row created directly through the ORM
      may break it. */
  predicate Valid(s: Store) {
    && UniqueProfileIds(s.profiles)
    && OneProfilePerUser(s.profiles)
    && UniquePostIds(s.posts)
    && (forall p :: p in s.profiles ==> p.user in s.users && p.following <= s.users)
    && (forall q :: q in s.posts ==> PostOwnedConsistently(s, q))
    && (forall p :: p in s.profiles ==> p.id < s.profileSeq)
    && (forall q :: q in s.posts ==> q.id < s.postSeq)
  }

  /** What the serializers guarantee of every row written through the API:
      the field bounds. Rows created directly through the ORM need not meet them. */
  predicate Bounded(s: Store) {
    && (forall p :: p in s.profiles ==> ValidProfile(p))
    && (forall q :: q in s.posts ==> ValidPost(q))
  }

  /** With the one-to-one link, the reverse accessor finds exactly the user's profile. */
  lemma ProfileOfUserFinds(ps: seq<Profile>, p: Profile)
    requires OneProfilePerUser(ps)
    requires p in ps
    ensures ProfileOfUser(ps, p.user) == Some(p)
  {
  }

  /** With unique ids, a lookup by id finds exactly the profile with that id. */
  lemma ProfileByIdFinds(ps: seq<Profile>, p: Profile)
    requires UniqueProfileIds(ps)
    requires p in ps
    ensures ProfileById(ps, p.id) == Some(p)
  {
  }

  /** With unique ids, a post id names exactly one post. */
  lemma PostByIdFinds(qs: seq<Post>, x: Post)
    requires UniquePostIds(qs)
    requires x in qs
    ensures PostById(qs, x.id) == Some(x)
  {
  }

  /** Adding a profile does not change the owner of an existing profile id. */
  lemma ProfileOwnerAppend(ps: seq<Profile>, y: Profile, id: nat)
    requires ProfileOwner(ps, id).Some?
    ensures ProfileOwner(ps + [y], id) == ProfileOwner(ps, id)
  {
    IndexWhereAppend(ps, y, HasProfileId(id));
  }

  /** Replacing a profile by one with the same id and user changes no owner. */
  lemma ProfileOwnerUpdate(ps: seq<Profile>, i: nat, y: Profile, id: nat)
    requires i < |ps|
    requires y.id == ps[i].id && y.user == ps[i].user
    ensures ProfileOwner(ps[i := y], id) == ProfileOwner(ps, id)
  {
    IndexWhereUpdate(ps, i, y, HasProfileId(id));
  }

  /** Removing the profiles with id `d` changes no other id's owner. */
  lemma ProfileOwnerRemove(ps: seq<Profile>, d: nat, id: nat)
    requires UniqueProfileIds(ps)
    requires id != d
    ensures ProfileOwner(Narrow(ps, LacksProfileId(d)), id) == ProfileOwner(ps, id)
  {
    var rest := Narrow(ps, LacksProfileId(d));
    NarrowKeepsPairwise(ps, LacksProfileId(d), DistinctProfileIds);
    match ProfileById(ps, id)
    case Some(p) =>
      ProfileByIdFinds(rest, p);
    case None =>
  }

  lemma UniqueIdsNoDups(ps: seq<Profile>)
    requires UniqueProfileIds(ps)
    ensures NoDups(ps)
  {
  }

  lemma UniquePostIdsNoDups(qs: seq<Post>)
    requires UniquePostIds(qs)
    ensures NoDups(qs)
  {
  }

  function PostKey(q: Post): int {
    q.createdAt
  }

  /** `Meta.ordering = ["-created_at"]`: all posts, newest first. */
  function PostsNewestFirst(qs: seq<Post>): (r: seq<Post>)
    ensures SortedDesc(r, PostKey)
    ensures multiset(r) == multiset(qs)
    ensures forall q :: q in r <==> q in qs
  {
    SortDescMembers(qs, PostKey);
    SortDesc(qs, PostKey)
  }

  /** Saving a new profile, whose id is the next value of the sequence: the
      store stays valid, the sequence moves past the id, and the profile is
      found by id and by user. */
  function AddProfile(s: Store, p: Profile): (r: Store)
    requires Valid(s)
    requires p.id == s.profileSeq
    requires p.user in s.users && p.following <= s.users
    requires forall o :: o in s.profiles ==> o.user != p.user
    ensures Valid(r)
    ensures Bounded(s) && ValidProfile(p) ==> Bounded(r)
    ensures r.users == s.users && r.posts == s.posts
    ensures r.profileSeq == p.id + 1 && r.postSeq == s.postSeq
    ensures forall o :: o in r.profiles <==> o in s.profiles || o == p
    ensures ProfileById(r.profiles, p.id) == Some(p) && ProfileOfUser(r.profiles, p.user) == Some(p)
  {
    var r := s.(profiles := s.profiles + [p], profileSeq := p.id + 1);
    PairwiseAppend(s.profiles, p, DistinctProfileIds);
    PairwiseAppend(s.profiles, p, DistinctUsers);
    forall q | q in s.posts
      ensures PostOwnedConsistently(r, q)
    {
      ProfileOwnerAppend(s.profiles, p, q.profile);
    }
    ProfileByIdFinds(r.profiles, p);
    ProfileOfUserFinds(r.profiles, p);
    r
  }

  /** Saving an existing profile whose id and user are unchanged. */
  function ReplaceProfile(s: Store, p: Profile): (r: Store)
    requires Valid(s)
    requires ProfileById(s.profiles, p.id).Some? && ProfileById(s.profiles, p.id).value.user == p.user
    requires p.following <= s.users
    ensures Valid(r)
    ensures Bounded(s) && ValidProfile(p) ==> Bounded(r)
    ensures r.users == s.users && r.posts == s.posts && |r.profiles| == |s.profiles|
    ensures r.profileSeq == s.profileSeq && r.postSeq == s.postSeq
    ensures forall k :: 0 <= k < |s.profiles| && s.profiles[k].id != p.id ==> r.profiles[k] == s.profiles[k]
    ensures forall o :: o in r.profiles <==> (o in s.profiles && o.id != p.id) || o == p
    ensures ProfileById(r.profiles, p.id) == Some(p)
  {
    var ps := s.profiles;
    var i := IndexWhere(ps, HasProfileId(p.id)).value;
    var r := s.(profiles := ps[i := p]);
    assert p.id < s.profileSeq by {
      assert ps[i] in ps;
    }
    assert forall k :: 0 <= k < |ps| && k != i ==> ps[k].id != p.id by {
      ProfileByIdFinds(ps, ps[i]);
    }
    PairwiseUpdate(ps, i, p, DistinctProfileIds);
    PairwiseUpdate(ps, i, p, DistinctUsers);
    forall q | q in s.posts
      ensures PostOwnedConsistently(r, q)
    {
      ProfileOwnerUpdate(ps, i, p, q.profile);
    }
    assert r.profiles[i] == p;
    ProfileByIdFinds(r.profiles, p);
    r
  }

  /** Deleting a profile; `on_delete=CASCADE` on `Post.profile` deletes its posts too. */
  function RemoveProfile(s: Store, id: nat): (r: Store)
    requires Valid(s)
    ensures Valid(r)
    ensures Bounded(s) ==> Bounded(r)
    ensures r.users == s.users
    ensures r.profileSeq == s.profileSeq && r.postSeq == s.postSeq
    ensures forall o :: o in r.profiles <==> o in s.profiles && o.id != id
    ensures forall x :: x in r.posts <==> x in s.posts && x.profile != id
  {
    var r := s.(profiles := Narrow(s.profiles, LacksProfileId(id)), posts := Narrow(s.posts, NotOnProfile(id)));
    NarrowKeepsPairwise(s.profiles, LacksProfileId(id), DistinctProfileIds);
    NarrowKeepsPairwise(s.profiles, LacksProfileId(id), DistinctUsers);
    NarrowKeepsPairwise(s.posts, NotOnProfile(id), DistinctPostIds);
    forall q | q in r.posts
      ensures PostOwnedConsistently(r, q)
    {
      ProfileOwnerRemove(s.profiles, id, q.profile);
    }
    r
  }

  /** Saving a new post, whose id is the next value of the sequence and whose
      profile belongs to its author. */
  function AddPost(s: Store, x: Post): (r: Store)
    requires Valid(s)
    requires x.id == s.postSeq
    requires PostOwnedConsistently(s, x)
    ensures Valid(r)
    ensures Bounded(s) && ValidPost(x) ==> Bounded(r)
    ensures r.users == s.users && r.profiles == s.profiles
    ensures r.postSeq == x.id + 1 && r.profileSeq == s.profileSeq
    ensures forall o :: o in r.posts <==> o in s.posts || o == x
    ensures PostById(r.posts, x.id) == Some(x)
  {
    var r := s.(posts := s.posts + [x], postSeq := x.id + 1);
    PairwiseAppend(s.posts, x, DistinctPostIds);
    PostByIdFinds(r.posts, x);
    r
  }

  /** Saving an existing post whose id, author and profile are unchanged. */
  function ReplacePost(s: Store, x: Post): (r: Store)
    requires Valid(s)
    requires PostById(s.posts, x.id).Some?
    requires PostById(s.posts, x.id).value.author == x.author && PostById(s.posts, x.id).value.profile == x.profile
    ensures Valid(r)
    ensures Bounded(s) && ValidPost(x) ==> Bounded(r)
    ensures r.users == s.users && r.profiles == s.profiles && |r.posts| == |s.posts|
    ensures r.profileSeq == s.profileSeq && r.postSeq == s.postSeq
    ensures forall k :: 0 <= k < |s.posts| && s.posts[k].id != x.id ==> r.posts[k] == s.posts[k]
    ensures forall o :: o in r.posts <==> (o in s.posts && o.id != x.id) || o == x
    ensures PostById(r.posts, x.id) == Some(x)
  {
    var qs := s.posts;
    var i := IndexWhere(qs, HasPostId(x.id)).value;
    var r := s.(posts := qs[i := x]);
    assert forall k :: 0 <= k < |qs| && k != i ==> qs[k].id != x.id by {
      PostByIdFinds(qs, qs[i]);
    }
    ReplacePostKeepsValid(s, i, x);
    assert r.posts[i] == x;
    assert forall o :: o in r.posts ==> o in qs || o == x;
    PostByIdFinds(r.posts, x);
    r
  }

  /** Overwriting a post in place with one of the same id, author and profile keeps the store valid. */
  lemma ReplacePostKeepsValid(s: Store, i: nat, x: Post)
    requires Valid(s) && i < |s.posts|
    requires s.posts[i].id == x.id && s.posts[i].author == x.author && s.posts[i].profile == x.profile
    ensures Valid(s.(posts := s.posts[i := x]))
  {
    var qs := s.posts;
    var r := s.(posts := qs[i := x]);
    assert x.id < s.postSeq by {
      assert qs[i] in qs;
    }
    PairwiseUpdate(qs, i, x, DistinctPostIds);
    assert PostOwnedConsistently(s, qs[i]) by {
      assert qs[i] in qs;
    }
    forall o | o in r.posts
      ensures PostOwnedConsistently(r, o) && o.id < r.postSeq
    {
      var k :| 0 <= k < |r.posts| && r.posts[k] == o;
      if k != i {
        assert o in qs;
      }
    }
  }

  /** Deleting one post. */
  function RemovePost(s: Store, id: nat): (r: Store)
    requires Valid(s)
    ensures Valid(r)
    ensures Bounded(s) ==> Bounded(r)
    ensures r.users == s.users && r.profiles == s.profiles
    ensures r.profileSeq == s.profileSeq && r.postSeq == s.postSeq
    ensures forall o :: o in r.posts <==> o in s.posts && o.id != id
  {
    NarrowKeepsPairwise(s.posts, LacksPostId(id), DistinctPostIds);
    s.(posts := Narrow(s.posts, LacksPostId(id)))
  }
}

=== FILE: outcomes.dfy ===
/** Outcomes of an operation on the social store: a value, or the abstract
    result code the HTTP layer would turn into an error response. */
module Outcomes {

  datatype Option<+T> = None | Some(value: T)

  /** The abstract error codes of the profile/post API. */
  datatype Error =
    | NotFound                        // the id is not in the (filtered) queryset
    | Forbidden                       // the object permission denied a write
    | ValidationFailed(field: string) // the request body failed the serializer's field rules
    | ProfileMissing                  // a user that must have a Profile has none
    | ProfileExists                   // a second Profile for one user breaks the one-to-one link
    | NestedWriteRejected(field: string) // a writable dotted-source field was sent (framework assertion)

  datatype Result<+T> = Ok(value: T) | Err(error: Error) {

    predicate IsFailure() {
      Err?
    }

    function PropagateFailure<U>(): Result<U>
      requires Err?
    {
      Err(error)
    }

    function Extract(): T
      requires Ok?
    {
      value
    }
  }

  function FromOption<T>(o: Option<T>, e: Error): Result<T> {
    match o
    case Some(v) => Ok(v)
    case None => Err(e)
  }
}

=== FILE: permissions.dfy ===
/** Object-level permissions (`social/permissions.py`): reads are open to
    everyone, writes only to the object's owner. */
module Permissions {

  import opened Models

  /** The framework's `SAFE_METHODS`. */
  const SafeMethods: set<string> := {"GET", "HEAD", "OPTIONS"}

  datatype Decision = Allow | Deny

  /** `IsProfileOwnerOrReadOnly.has_object_permission`. */
  function ProfilePermission(verb: string, actor: UserId, obj: Profile): (d: Decision)
    ensures d == Allow <==> verb in SafeMethods || obj.user == actor
  {
    if verb in SafeMethods then Allow
    else if obj.user == actor then Allow
    else Deny
  }

  /** `IsPostOwnerOrReadOnly.has_object_permission`. */
  function PostPermission(verb: string, actor: UserId, obj: Post): (d: Decision)
    ensures d == Allow <==> verb in SafeMethods || obj.author == actor
  {
    if verb in SafeMethods then Allow
    else if obj.author == actor then Allow
    else Deny
  }

  /** A safe method is admitted whoever asks, on any profile or post. */
  lemma SafeMethodsAdmitted(verb: string, actor: UserId, p: Profile, q: Post)
    requires verb in SafeMethods
    ensures ProfilePermission(verb, actor, p) == Allow
    ensures PostPermission(verb, actor, q) == Allow
  {
  }

  /** PUT, PATCH and DELETE by anyone but the owner are denied. */
  lemma NonOwnerWritesDenied(actor: UserId, p: Profile, q: Post)
    ensures p.user != actor ==>
      forall m :: m in {"PUT", "PATCH", "DELETE"} ==> ProfilePermission(m, actor, p) == Deny
    ensures q.author != actor ==>
      forall m :: m in {"PUT", "PATCH", "DELETE"} ==> PostPermission(m, actor, q) == Deny
  {
  }

  /** The decision reads only the method, the actor and the owner field: two
      objects with the same owner get the same answer, and a profile and a
      post with the same owner are treated alike. */
  lemma DecisionDependsOnlyOnOwner(verb: string, actor: UserId, p1: Profile, p2: Profile, q1: Post, q2: Post)
    requires p1.user == p2.user == q1.author == q2.author
    ensures ProfilePermission(verb, actor, p1) == ProfilePermission(verb, actor, p2)
    ensures PostPermission(verb, actor, q1) == PostPermission(verb, actor, q2)
    ensures ProfilePermission(verb, actor, p1) == PostPermission(verb, actor, q1)
  {
  }
}

=== FILE: queries.dfy ===
/** The list querysets of the two viewsets (`get_queryset` in
    `social/views.py`): optional query parameters narrow the collection,
    then `distinct()` removes repeats. */
module Queries {

  import opened Outcomes
  import opened Text
  import opened Seqs
  import opened Models

  /** `first_name`, `last_name` and `gender` query parameters; `None` is absent. */
  datatype ProfileQuery = ProfileQuery(firstName: Option<string>, lastName: Option<string>, gender: Option<string>)

  /** `hashtag` and `title` query parameters; `None` is absent. */
  datatype PostQuery = PostQuery(hashtag: Option<string>, title: Option<string>)

  /** The source tests a parameter by truthiness: absent and empty impose nothing. */
  predicate Supplied(param: Option<string>) {
    param.Some? && param.value != ""
  }

  function FirstNameContains(v: string): Profile -> bool {
    (p: Profile) => IContains(p.firstName, v)
  }

  function LastNameContains(v: string): Profile -> bool {
    (p: Profile) => IContains(p.lastName, v)
  }

  /** `gender=v` is an exact comparison with the stored choice value. */
  function GenderIs(v: string): Profile -> bool {
    (p: Profile) => GenderValue(p.gender) == v
  }

  function HashtagContains(v: string): Post -> bool {
    (x: Post) => IContains(x.hashtag, v)
  }

  function TitleContains(v: string): Post -> bool {
    (x: Post) => IContains(x.title, v)
  }

  /** The reference meaning of a profile query: every supplied parameter matches. */
  predicate MatchesProfileQuery(p: Profile, q: ProfileQuery) {
    && (Supplied(q.firstName) ==> IContains(p.firstName, q.firstName.value))
    && (Supplied(q.lastName) ==> IContains(p.lastName, q.lastName.value))
    && (Supplied(q.gender) ==> GenderValue(p.gender) == q.gender.value)
  }

  function ProfileMatcher(q: ProfileQuery): Profile -> bool {
    (p: Profile) => MatchesProfileQuery(p, q)
  }

  /** The reference meaning of a post query: every supplied parameter matches. */
  predicate MatchesPostQuery(x: Post, q: PostQuery) {
    && (Supplied(q.hashtag) ==> IContains(x.hashtag, q.hashtag.value))
    && (Supplied(q.title) ==> IContains(x.title, q.title.value))
  }

  /** `ProfileViewSet.get_queryset`: the filters in source order, then `distinct()`. */
  function ProfileQueryset(profiles: seq<Profile>, q: ProfileQuery): (r: seq<Profile>)
    ensures forall p :: p in r <==> p in profiles && MatchesProfileQuery(p, q)
    ensures NoDups(r)
  {
    var qs := profiles;
    var qs := if Supplied(q.firstName) then Narrow(qs, FirstNameContains(q.firstName.value)) else qs;
    var qs := if Supplied(q.lastName) then Narrow(qs, LastNameContains(q.lastName.value)) else qs;
    var qs := if Supplied(q.gender) then Narrow(qs, GenderIs(q.gender.value)) else qs;
    Distinct(qs)
  }

  /** `PostViewSet.get_queryset`: all posts newest first, the filters in source
      order, then `distinct()`. */
  function PostQueryset(posts: seq<Post>, q: PostQuery): (r: seq<Post>)
    ensures forall x :: x in r <==> x in posts && MatchesPostQuery(x, q)
    ensures NoDups(r)
    ensures SortedDesc(r, PostKey)
  {
    var qs := PostsNewestFirst(posts);
    var qs1 := if Supplied(q.hashtag) then Narrow(qs, HashtagContains(q.hashtag.value)) else qs;
    var qs2 := if Supplied(q.title) then Narrow(qs1, TitleContains(q.title.value)) else qs1;
    assert SortedDesc(qs1, PostKey) by {
      if Supplied(q.hashtag) {
        NarrowKeepsSortedDesc(qs, HashtagContains(q.hashtag.value), PostKey);
      }
    }
    assert SortedDesc(qs2, PostKey) by {
      if Supplied(q.title) {
        NarrowKeepsSortedDesc(qs1, TitleContains(q.title.value), PostKey);
      }
    }
    DistinctKeepsPairwise(qs2, (a: Post, b: Post) => PostKey(a) >= PostKey(b));
    Distinct(qs2)
  }

  /** The sequential filters are one pass with the conjunction of the supplied
      parameters, so their order is irrelevant; the store's order is kept. */
  lemma ProfileQuerysetIsOnePass(profiles: seq<Profile>, q: ProfileQuery)
    requires NoDups(profiles)
    ensures ProfileQueryset(profiles, q) == Narrow(profiles, ProfileMatcher(q))
  {
    var c1 := (p: Profile) => Supplied(q.firstName) ==> IContains(p.firstName, q.firstName.value);
    var c2 := (p: Profile) => Supplied(q.lastName) ==> IContains(p.lastName, q.lastName.value);
    var c3 := (p: Profile) => Supplied(q.gender) ==> GenderValue(p.gender) == q.gender.value;
    var c12 := (p: Profile) => c1(p) && c2(p);
    var s1 := if Supplied(q.firstName) then Narrow(profiles, FirstNameContains(q.firstName.value)) else profiles;
    var s2 := if Supplied(q.lastName) then Narrow(s1, LastNameContains(q.lastName.value)) else s1;
    var s3 := if Supplied(q.gender) then Narrow(s2, GenderIs(q.gender.value)) else s2;
    if Supplied(q.firstName) {
      NarrowExt(profiles, FirstNameContains(q.firstName.value), c1);
    } else {
      NarrowAll(profiles, c1);
    }
    if Supplied(q.lastName) {
      NarrowExt(s1, LastNameContains(q.lastName.value), c2);
    } else {
      NarrowAll(s1, c2);
    }
    if Supplied(q.gender) {
      NarrowExt(s2, GenderIs(q.gender.value), c3);
    } else {
      NarrowAll(s2, c3);
    }
    NarrowFuse(profiles, c1, c2, c12);
    NarrowFuse(profiles, c12, c3, ProfileMatcher(q));
    NarrowKeepsNoDups(profiles, ProfileMatcher(q));
    DistinctOfNoDups(s3);
  }

  /** Filtering a filtered list again by the same parameters changes nothing. */
  lemma ProfileQuerysetIdempotent(profiles: seq<Profile>, q: ProfileQuery)
    ensures ProfileQueryset(ProfileQueryset(profiles, q), q) == ProfileQueryset(profiles, q)
  {
    var r := ProfileQueryset(profiles, q);
    if Supplied(q.firstName) {
      NarrowAll(r, FirstNameContains(q.firstName.value));
    }
    if Supplied(q.lastName) {
      NarrowAll(r, LastNameContains(q.lastName.value));
    }
    if Supplied(q.gender) {
      NarrowAll(r, GenderIs(q.gender.value));
    }
    DistinctOfNoDups(r);
  }

  /** Filtering a filtered list again by the same parameters changes nothing. */
  lemma PostQuerysetIdempotent(posts: seq<Post>, q: PostQuery)
    ensures PostQueryset(PostQueryset(posts, q), q) == PostQueryset(posts, q)
  {
    var r := PostQueryset(posts, q);
    SortDescOfSorted(r, PostKey);
    if Supplied(q.hashtag) {
      NarrowAll(r, HashtagContains(q.hashtag.value));
    }
    if Supplied(q.title) {
      NarrowAll(r, TitleContains(q.title.value));
    }
    DistinctOfNoDups(r);
  }

  /** With no parameter supplied (absent or empty), every profile is listed, in store order. */
  lemma NoParamsListAllProfiles(profiles: seq<Profile>, q: ProfileQuery)
    requires NoDups(profiles)
    requires !Supplied(q.firstName) && !Supplied(q.lastName) && !Supplied(q.gender)
    ensures ProfileQueryset(profiles, q) == profiles
  {
    DistinctOfNoDups(profiles);
  }

  /** A `gender` value that is none of the three choices selects nothing (no error). */
  lemma UnknownGenderSelectsNothing(profiles: seq<Profile>, q: ProfileQuery)
    requires Supplied(q.gender) && ParseGender(q.gender.value).None?
    ensures ProfileQueryset(profiles, q) == []
  {
  }
}

=== FILE: scenarios.dfy ===
/** Concrete requests against small stores, after the repository's API tests
    (`social/tests/test_social_media_api.py`): the filters, the follow lists,
    the refused writes of a non-owner, creation, and the post PATCH that
    carries an `author` key. */
module Scenarios {

  import opened Outcomes
  import opened Text
  import opened Models
  import opened Queries
  import opened Serializers
  import opened Views

  const Jane := Profile(1, 10, "Jane", "Doe", "http://img.example/jane.png", "", Female, {20})
  const John := Profile(2, 20, "John", "Roe", "http://img.example/john.png", "", Male, {})
  const Ann := Profile(3, 30, "Ann", "Last", "http://img.example/ann.png", "", Unknown, {})
  const Hello := Post(1, 10, "Hello", "World", "http://img.example/hello.png", 100, 1, "#greeting")

  /** Jane follows John; Jane wrote one post. */
  const Sample := Store({10, 20, 30}, [Jane, John, Ann], [Hello], 4, 2)

  lemma SampleIsValid()
    ensures Valid(Sample) && Bounded(Sample)
  {
    assert ProfileById(Sample.profiles, 1) == Some(Jane);
  }

  /** Filtering by `gender=Female` keeps the female profile only. */
  lemma GenderFilterScenario()
    ensures var r := ProfileQueryset(Sample.profiles, ProfileQuery(None, None, Some("Female")));
      Jane in r && John !in r && Ann !in r
  {
  }

  function WithLastName(id: nat, user: UserId, lastName: string): Profile {
    Profile(id, user, "firstname", lastName, "http://img.example/a.png", "", Female, {})
  }

  /** "Lastone" is not a substring of "Lasttwo", whatever the case. */
  lemma LasttwoLacksLastone()
    ensures !IContains("Lasttwo", "Lastone")
  {
    assert LowerStr("Lasttwo")[4] == 't' && LowerStr("Lastone")[4] == 'o';
    assert !OccursAt(LowerStr("Lasttwo"), LowerStr("Lastone"), 0);
  }

  /** Filtering by `last_name=Lastone` keeps "Lastone" and drops "Lasttwo" and "Last". */
  lemma LastNameFilterScenario()
    ensures var ps := [WithLastName(1, 10, "Lastone"), WithLastName(2, 20, "Lasttwo"), WithLastName(3, 30, "Last")];
      var r := ProfileQueryset(ps, ProfileQuery(None, Some("Lastone"), None));
      ps[0] in r && ps[1] !in r && ps[2] !in r
  {
    IContainsSelf("Lastone");
    IContainsTooLong("Last", "Lastone");
    LasttwoLacksLastone();
  }

  function WithTitle(id: nat, title: string): Post {
    Post(id, 10, title, "lastname", "http://img.example/p.png", id, 1, "")
  }

  /** "title1" is a substring of neither "title2" nor "title3". */
  lemma OtherTitlesLackTitle1()
    ensures !IContains("title2", "title1") && !IContains("title3", "title1")
  {
    assert LowerStr("title2")[5] == '2' && LowerStr("title3")[5] == '3' && LowerStr("title1")[5] == '1';
    assert !OccursAt(LowerStr("title2"), LowerStr("title1"), 0);
    assert !OccursAt(LowerStr("title3"), LowerStr("title1"), 0);
  }

  /** Filtering by `title=title1` keeps "title1" and drops "title2" and "title3". */
  lemma TitleFilterScenario()
    ensures var xs := [WithTitle(1, "title1"), WithTitle(2, "title2"), WithTitle(3, "title3")];
      var r := PostQueryset(xs, PostQuery(None, Some("title1")));
      xs[0] in r && xs[1] !in r && xs[2] !in r
  {
    IContainsSelf("title1");
    OtherTitlesLackTitle1();
    var xs := [WithTitle(1, "title1"), WithTitle(2, "title2"), WithTitle(3, "title3")];
    assert MatchesPostQuery(xs[0], PostQuery(None, Some("title1")));
    assert !MatchesPostQuery(xs[1], PostQuery(None, Some("title1")));
    assert !MatchesPostQuery(xs[2], PostQuery(None, Some("title1")));
  }

  /** `title=ABC` matches a post titled "abc123". */
  lemma CaseInsensitiveScenario()
    ensures var x := WithTitle(1, "abc123");
      x in PostQueryset([x], PostQuery(None, Some("ABC")))
  {
    assert LowerStr("ABC") == "abc";
    assert LowerStr("abc123")[..3] == "abc";
    assert OccursAt(LowerStr("abc123"), LowerStr("ABC"), 0);
  }

  /** Jane is John's only follower. */
  lemma JohnsFollowers()
    ensures (set q | q in Sample.profiles && 20 in q.following) == {Jane}
  {
  }

  /** Jane's `following` list names John. */
  lemma FollowingScenario()
    ensures FollowingNames(Sample, Jane) == Ok(["John Roe"])
  {
    ProfileOfUserFinds(Sample.profiles, John);
    assert FollowedHaveProfiles(Sample, Jane);
    assert FullName(John) == "John Roe";
    var following := FollowingNames(Sample, Jane).value;
    assert |following| == 1 && "John Roe" in following;
    assert following == ["John Roe"];
  }

  /** John's `followers` list names Jane, and John's summary counts one follower. */
  lemma FollowersScenario()
    ensures FollowersCount(Sample, John) == 1
    ensures FollowerNames(Sample, John) == ["Jane Doe"]
  {
    JohnsFollowers();
    assert FullName(Jane) == "Jane Doe";
    var followers := FollowerNames(Sample, John);
    assert |followers| == 1 && "Jane Doe" in followers;
    assert followers == ["Jane Doe"];
  }

  /** John may neither change nor delete Jane's profile or post. */
  lemma NonOwnerScenario(body: Body)
    ensures UpdateProfile(Sample, 20, ProfileQuery(None, None, None), 1, body, false) == Err(Forbidden)
    ensures DestroyProfile(Sample, 20, ProfileQuery(None, None, None), 1) == Err(Forbidden)
    ensures UpdatePost(Sample, 20, PostQuery(None, None), 1, body, false) == Err(Forbidden)
    ensures DestroyPost(Sample, 20, PostQuery(None, None), 1) == Err(Forbidden)
  {
    SampleIsValid();
    NonOwnerProfileWritesForbidden(Sample, 20, ProfileQuery(None, None, None), Jane, body, false);
    NonOwnerPostWritesForbidden(Sample, 20, PostQuery(None, None), Hello, body, false);
  }

  /** Jane posts; the post has Jane as author and hangs off Jane's profile. Without
      `media_attachments` the same body is refused. */
  lemma CreatePostScenario(now: nat)
    ensures var body := map["title" := JText("Hello"), "content" := JText("World"),
                            "media_attachments" := JText("http://img.example/x.png")];
      var r := CreatePost(Sample, 10, body, now);
      r.Ok? && r.value.obj.author == 10 && r.value.obj.profile == 1 && r.value.obj.title == "Hello"
    ensures CreatePost(Sample, 10, map["title" := JText("Hello"), "content" := JText("World")], now)
      == Err(ValidationFailed("media_attachments"))
  {
    SampleIsValid();
    ProfileOfUserFinds(Sample.profiles, Jane);
  }

  /** Ann deletes profile 3 and creates a new one: it gets id 4, the
      next value of the sequence, not the freed id 3. */
  lemma RecreateProfileScenario()
    ensures var q := ProfileQuery(None, None, None);
      var d := DestroyProfile(Sample, 30, q, 3);
      var body := map["first_name" := JText("Ann"), "last_name" := JText("Last"),
                      "avatar" := JText("http://img.example/ann.png"), "gender" := JText("unknown")];
      d.Ok? && var c := CreateProfile(d.value, 30, body); c.Ok? && c.value.obj.id == 4
  {
    SampleIsValid();
    var q := ProfileQuery(None, None, None);
    assert Ann in ProfileQueryset(Sample.profiles, q);
    FindProfileIsUnique(Sample, q, Ann);
    var s2 := DestroyProfile(Sample, 30, q, 3).value;
    assert forall o :: o in s2.profiles ==> o.user != 30;
    assert ProfileOfUser(s2.profiles, 30).None?;
    var body := map["first_name" := JText("Ann"), "last_name" := JText("Last"),
                    "avatar" := JText("http://img.example/ann.png"), "gender" := JText("unknown")];
    AnnBodyAdmissible(s2.users, body);
  }

  lemma AnnBodyAdmissible(users: set<UserId>, body: Body)
    requires body == map["first_name" := JText("Ann"), "last_name" := JText("Last"),
                         "avatar" := JText("http://img.example/ann.png"), "gender" := JText("unknown")]
    ensures ProfileBodyAdmissible(users, ProfileShapeFor(Create), body, false)
  {
    assert ParseGender("unknown") == Some(Unknown);
  }

  /** The post PATCH of the finding, as written: the owner sends an `author`
      key and the request fails. */
  lemma AuthorPatchAsWrittenScenario()
    ensures PartialUpdatePostAsWritten(Sample, 10, PostQuery(None, None), 1, map["author" := JText("Someone Else")]).Err?
  {
    SampleIsValid();
  }

  /** The same PATCH with `author` read-only: it succeeds and changes nothing. */
  lemma AuthorPatchScenario()
    ensures var r := UpdatePost(Sample, 10, PostQuery(None, None), 1, map["author" := JText("Someone Else")], true);
      r.Ok? && r.value.obj == Hello
  {
    SampleIsValid();
    var q := PostQuery(None, None);
    assert Hello in PostQueryset(Sample.posts, q);
    OwnerEmptyPatchKeepsPost(Sample, q, Hello);
    UpdatePostIgnoresAuthor(Sample, 10, q, 1, map[], true, JText("Someone Else"));
    assert map[]["author" := JText("Someone Else")] == map["author" := JText("Someone Else")];
  }
}

=== FILE: seqs.dfy ===
/** Sequence operations behind querysets: narrowing by a predicate,
    duplicate removal (`distinct()`), ordering by a key, and counting. */
module Seqs {

  import opened Outcomes

  /** The elements of `xs` that satisfy `keep`, in their original order
      (one `queryset.filter(...)` step). */
  function Narrow<T(!new)>(xs: seq<T>, keep: T -> bool): (r: seq<T>)
    ensures |r| <= |xs|
    ensures forall x :: x in r <==> x in xs && keep(x)
    decreases |xs|
  {
    if |xs| == 0 then []
    else if keep(xs[0]) then [xs[0]] + Narrow(xs[1..], keep)
    else Narrow(xs[1..], keep)
  }

  /** Every earlier element is related to every later one. */
  predicate Pairwise<T>(xs: seq<T>, rel: (T, T) -> bool) {
    forall i, j :: 0 <= i < j < |xs| ==> rel(xs[i], xs[j])
  }

  predicate NoDups<T(==)>(xs: seq<T>) {
    forall i, j :: 0 <= i < j < |xs| ==> xs[i] != xs[j]
  }

  /** Non-increasing order of `key`: the first element has the largest key. */
  predicate SortedDesc<T>(xs: seq<T>, key: T -> int) {
    forall i, j :: 0 <= i < j < |xs| ==> key(xs[i]) >= key(xs[j])
  }

  /** Narrowing keeps every ordered relation between survivors. */
  lemma {:induction false} NarrowKeepsPairwise<T(!new)>(xs: seq<T>, keep: T -> bool, rel: (T, T) -> bool)
    requires Pairwise(xs, rel)
    ensures Pairwise(Narrow(xs, keep), rel)
    decreases |xs|
  {
    if |xs| > 0 {
      NarrowKeepsPairwise(xs[1..], keep, rel);
      var rest := Narrow(xs[1..], keep);
      if keep(xs[0]) {
        forall j | 0 <= j < |rest|
          ensures rel(xs[0], rest[j])
        {
          assert rest[j] in xs[1..];
          var k :| 0 <= k < |xs[1..]| && xs[1..][k] == rest[j];
          assert xs[k + 1] == rest[j];
        }
        var r := [xs[0]] + rest;
        forall i, j | 0 <= i < j < |r|
          ensures rel(r[i], r[j])
        {
          if i == 0 {
            assert r[j] == rest[j - 1];
          } else {
            assert r[i] == rest[i - 1] && r[j] == rest[j - 1];
          }
        }
      }
    }
  }

  lemma NarrowKeepsNoDups<T(!new)>(xs: seq<T>, keep: T -> bool)
    requires NoDups(xs)
    ensures NoDups(Narrow(xs, keep))
  {
    NarrowKeepsPairwise(xs, keep, (a, b) => a != b);
  }

  lemma NarrowKeepsSortedDesc<T(!new)>(xs: seq<T>, keep: T -> bool, key: T -> int)
    requires SortedDesc(xs, key)
    ensures SortedDesc(Narrow(xs, keep), key)
  {
    NarrowKeepsPairwise(xs, keep, (a, b) => key(a) >= key(b));
  }

  /** Two narrowing steps may be applied in either order. */
  lemma {:induction false} NarrowCommutes<T(!new)>(xs: seq<T>, f: T -> bool, g: T -> bool)
    ensures Narrow(Narrow(xs, f), g) == Narrow(Narrow(xs, g), f)
    decreases |xs|
  {
    if |xs| > 0 {
      NarrowCommutes(xs[1..], f, g);
      var x := xs[0];
      if f(x) {
        assert Narrow(xs, f) == [x] + Narrow(xs[1..], f);
        assert ([x] + Narrow(xs[1..], f))[1..] == Narrow(xs[1..], f);
      }
      if g(x) {
        assert Narrow(xs, g) == [x] + Narrow(xs[1..], g);
        assert ([x] + Narrow(xs[1..], g))[1..] == Narrow(xs[1..], g);
      }
    }
  }

  /** Successive narrowing is narrowing by the conjunction. */
  lemma {:induction false} NarrowFuse<T(!new)>(xs: seq<T>, f: T -> bool, g: T -> bool, h: T -> bool)
    requires forall x :: h(x) == (f(x) && g(x))
    ensures Narrow(Narrow(xs, f), g) == Narrow(xs, h)
    decreases |xs|
  {
    if |xs| > 0 {
      NarrowFuse(xs[1..], f, g, h);
      if f(xs[0]) {
        assert ([xs[0]] + Narrow(xs[1..], f))[1..] == Narrow(xs[1..], f);
      }
    }
  }

  /** Narrowing by predicates that agree on every element gives the same result. */
  lemma {:induction false} NarrowExt<T(!new)>(xs: seq<T>, f: T -> bool, g: T -> bool)
    requires forall i :: 0 <= i < |xs| ==> f(xs[i]) == g(xs[i])
    ensures Narrow(xs, f) == Narrow(xs, g)
    decreases |xs|
  {
    if |xs| > 0 {
      NarrowExt(xs[1..], f, g);
    }
  }

  /** Narrowing by a predicate every element satisfies changes nothing. */
  lemma {:induction false} NarrowAll<T(!new)>(xs: seq<T>, f: T -> bool)
    requires forall i :: 0 <= i < |xs| ==> f(xs[i])
    ensures Narrow(xs, f) == xs
    decreases |xs|
  {
    if |xs| > 0 {
      NarrowAll(xs[1..], f);
      assert [xs[0]] + xs[1..] == xs;
    }
  }

  /** Removal of repeated elements (`queryset.distinct()`); the last
      occurrence of each element is the one kept. */
  function Distinct<T(==,!new)>(xs: seq<T>): (r: seq<T>)
    ensures |r| <= |xs|
    ensures forall x :: x in r <==> x in xs
    ensures NoDups(r)
    decreases |xs|
  {
    if |xs| == 0 then []
    else if xs[0] in xs[1..] then Distinct(xs[1..])
    else
      var rest := Distinct(xs[1..]);
      assert xs[0] !in rest;
      assert forall j :: 1 <= j < |[xs[0]] + rest| ==> ([xs[0]] + rest)[j] == rest[j - 1];
      [xs[0]] + rest
  }

  /** Removing duplicates keeps every ordered relation between survivors. */
  lemma {:induction false} DistinctKeepsPairwise<T(!new)>(xs: seq<T>, rel: (T, T) -> bool)
    requires Pairwise(xs, rel)
    ensures Pairwise(Distinct(xs), rel)
    decreases |xs|
  {
    if |xs| > 0 {
      assert Pairwise(xs[1..], rel) by {
        forall i, j | 0 <= i < j < |xs[1..]|
          ensures rel(xs[1..][i], xs[1..][j])
        {
          assert xs[1..][i] == xs[i + 1] && xs[1..][j] == xs[j + 1];
        }
      }
      DistinctKeepsPairwise(xs[1..], rel);
      var rest := Distinct(xs[1..]);
      if xs[0] !in xs[1..] {
        forall j | 0 <= j < |rest|
          ensures rel(xs[0], rest[j])
        {
          assert rest[j] in xs[1..];
          var k :| 0 <= k < |xs[1..]| && xs[1..][k] == rest[j];
          assert xs[k + 1] == rest[j];
        }
        var r := [xs[0]] + rest;
        forall i, j | 0 <= i < j < |r|
          ensures rel(r[i], r[j])
        {
          if i == 0 {
            assert r[j] == rest[j - 1];
          } else {
            assert r[i] == rest[i - 1] && r[j] == rest[j - 1];
          }
        }
      }
    }
  }

  /** Sorting a sequence that is already in order changes nothing. */
  lemma {:induction false} SortDescOfSorted<T(!new)>(xs: seq<T>, key: T -> int)
    requires SortedDesc(xs, key)
    ensures SortDesc(xs, key) == xs
    decreases |xs|
  {
    if |xs| > 0 {
      assert SortedDesc(xs[1..], key) by {
        forall i, j | 0 <= i < j < |xs[1..]|
          ensures key(xs[1..][i]) >= key(xs[1..][j])
        {
          assert xs[1..][i] == xs[i + 1] && xs[1..][j] == xs[j + 1];
        }
      }
      SortDescOfSorted(xs[1..], key);
      assert [xs[0]] + xs[1..] == xs;
    }
  }

  /** A sequence that already has no duplicates is left as it is. */
  lemma {:induction false} DistinctOfNoDups<T(!new)>(xs: seq<T>)
    requires NoDups(xs)
    ensures Distinct(xs) == xs
    decreases |xs|
  {
    if |xs| > 0 {
      assert xs[0] !in xs[1..] by {
        forall k | 0 <= k < |xs[1..]|
          ensures xs[1..][k] != xs[0]
        {
          assert xs[1..][k] == xs[k + 1];
        }
      }
      assert NoDups(xs[1..]) by {
        forall i, j | 0 <= i < j < |xs[1..]|
          ensures xs[1..][i] != xs[1..][j]
        {
          assert xs[1..][i] == xs[i + 1] && xs[1..][j] == xs[j + 1];
        }
      }
      DistinctOfNoDups(xs[1..]);
      assert [xs[0]] + xs[1..] == xs;
    }
  }

  /** The keys of the elements of `xs`. */
  ghost function Image<T(!new), K>(xs: seq<T>, key: T -> K): set<K> {
    set x | x in xs :: key(x)
  }

  /** Distinct keys make the number of keys equal the number of elements. */
  lemma {:induction false} CardOfKeys<T(!new), K>(xs: seq<T>, key: T -> K)
    requires forall i, j :: 0 <= i < j < |xs| ==> key(xs[i]) != key(xs[j])
    ensures |Image(xs, key)| == |xs|
    decreases |xs|
  {
    if |xs| > 0 {
      var head, tail := xs[0], xs[1..];
      assert xs == [head] + tail;
      assert forall i, j :: 0 <= i < j < |tail| ==> key(tail[i]) != key(tail[j]) by {
        forall i, j | 0 <= i < j < |tail|
          ensures key(tail[i]) != key(tail[j])
        {
          assert tail[i] == xs[i + 1] && tail[j] == xs[j + 1];
        }
      }
      CardOfKeys(tail, key);
      var ks := Image(xs, key);
      var kt := Image(tail, key);
      forall y | y in tail
        ensures key(y) != key(head)
      {
        var k :| 0 <= k < |tail| && tail[k] == y;
        assert xs[k + 1] == y;
      }
      assert key(head) !in kt;
      assert ks == kt + {key(head)} by {
        forall z | z in ks
          ensures z in kt + {key(head)}
        {
          var y :| y in xs && key(y) == z;
          if y != head {
            assert y in tail;
          }
        }
        forall z | z in kt
          ensures z in ks
        {
          var y :| y in tail && key(y) == z;
          assert y in xs;
        }
      }
    }
  }

  /** The tail of a sequence without duplicates has none either, nor its head. */
  lemma NoDupsTail<T>(xs: seq<T>)
    requires NoDups(xs) && |xs| > 0
    ensures NoDups(xs[1..]) && xs[0] !in xs[1..]
  {
    var t := xs[1..];
    forall i, j | 0 <= i < j < |t|
      ensures t[i] != t[j]
    {
      assert t[i] == xs[i + 1] && t[j] == xs[j + 1];
    }
    forall k | 0 <= k < |t|
      ensures t[k] != xs[0]
    {
      assert t[k] == xs[k + 1];
    }
  }

  /** An injective map keeps the size of a set. */
  lemma {:induction false} InjectiveImageCard<T(!new), K>(xs: set<T>, key: T -> K)
    requires forall x, y :: x in xs && y in xs && key(x) == key(y) ==> x == y
    ensures |set x | x in xs :: key(x)| == |xs|
    decreases |xs|
  {
    if xs != {} {
      var x :| x in xs;
      var rest := xs - {x};
      InjectiveImageCard(rest, key);
      var img := set y | y in rest :: key(y);
      assert key(x) !in img;
      assert (set y | y in xs :: key(y)) == img + {key(x)};
    }
  }

  /** A set in one-to-one correspondence with another has its size. */
  lemma Bijection<T(!new), K(!new)>(xs: set<T>, ys: set<K>, key: T -> K)
    requires forall x, y :: x in xs && y in xs && key(x) == key(y) ==> x == y
    requires forall x :: x in xs ==> key(x) in ys
    requires forall k :: k in ys ==> exists x :: x in xs && key(x) == k
    ensures |ys| == |xs|
  {
    InjectiveImageCard(xs, key);
    assert ys == set x | x in xs :: key(x);
  }

  /** Without duplicates, a sequence has as many elements as the set of its elements. */
  lemma NoDupsCard<T(!new)>(xs: seq<T>)
    requires NoDups(xs)
    ensures |set x | x in xs| == |xs|
  {
    var id := (x: T) => x;
    CardOfKeys(xs, id);
    assert Image(xs, id) == set x | x in xs;
  }

  /** Inserts `x` into a sequence ordered by `key`, keeping the order. */
  function InsertDesc<T(!new)>(x: T, xs: seq<T>, key: T -> int): (r: seq<T>)
    requires SortedDesc(xs, key)
    ensures SortedDesc(r, key)
    ensures multiset(r) == multiset(xs) + multiset{x}
    ensures |r| == |xs| + 1
    ensures r[0] == x || (|xs| > 0 && r[0] == xs[0])
    decreases |xs|
  {
    if |xs| == 0 then [x]
    else if key(xs[0]) <= key(x) then
      ConsSortedDesc(x, xs, key);
      [x] + xs
    else
      var rest := InsertDesc(x, xs[1..], key);
      assert xs == [xs[0]] + xs[1..];
      assert multiset(xs) == multiset{xs[0]} + multiset(xs[1..]);
      ConsSortedDesc(xs[0], rest, key);
      [xs[0]] + rest
  }

  /** A head no smaller than the first element keeps a descending sequence ordered. */
  lemma ConsSortedDesc<T>(h: T, rest: seq<T>, key: T -> int)
    requires SortedDesc(rest, key)
    requires |rest| > 0 ==> key(h) >= key(rest[0])
    ensures SortedDesc([h] + rest, key)
  {
    var r := [h] + rest;
    forall i, j | 0 <= i < j < |r|
      ensures key(r[i]) >= key(r[j])
    {
      assert r[j] == rest[j - 1];
      if i > 0 {
        assert r[i] == rest[i - 1];
      } else {
        assert key(rest[0]) >= key(rest[j - 1]) || j == 1;
      }
    }
  }

  /** Orders a sequence by `key`, largest first; the result is a permutation. */
  function SortDesc<T(!new)>(xs: seq<T>, key: T -> int): (r: seq<T>)
    ensures SortedDesc(r, key)
    ensures multiset(r) == multiset(xs)
    decreases |xs|
  {
    if |xs| == 0 then []
    else
      assert xs == [xs[0]] + xs[1..];
      InsertDesc(xs[0], SortDesc(xs[1..], key), key)
  }

  /** Sorting neither adds nor loses an element. */
  lemma SortDescMembers<T(!new)>(xs: seq<T>, key: T -> int)
    ensures forall x :: x in SortDesc(xs, key) <==> x in xs
  {
    var r := SortDesc(xs, key);
    forall x
      ensures x in r <==> x in xs
    {
      assert x in r <==> x in multiset(r);
      assert x in xs <==> x in multiset(xs);
    }
  }

  /** Index of the first element satisfying `p`, if any (a lookup by key). */
  function IndexWhere<T>(xs: seq<T>, p: T -> bool): (r: Option<nat>)
    ensures r.Some? ==> r.value < |xs| && p(xs[r.value])
    ensures r.Some? ==> forall j :: 0 <= j < r.value ==> !p(xs[j])
    ensures r.None? ==> forall j :: 0 <= j < |xs| ==> !p(xs[j])
    decreases |xs|
  {
    if |xs| == 0 then None
    else if p(xs[0]) then Some(0)
    else
      match IndexWhere(xs[1..], p)
      case None => None
      case Some(i) =>
        assert forall j :: 1 <= j < i + 1 ==> xs[j] == xs[1..][j - 1];
        Some(i + 1)
  }

  /** Appending never moves an existing first match. */
  lemma {:induction false} IndexWhereAppend<T>(xs: seq<T>, y: T, p: T -> bool)
    ensures IndexWhere(xs, p).Some? ==> IndexWhere(xs + [y], p) == IndexWhere(xs, p)
    ensures IndexWhere(xs, p).None? && p(y) ==> IndexWhere(xs + [y], p) == Some(|xs|)
    decreases |xs|
  {
    if |xs| == 0 {
      assert xs + [y] == [y];
    } else {
      assert (xs + [y])[0] == xs[0];
      assert (xs + [y])[1..] == xs[1..] + [y];
      IndexWhereAppend(xs[1..], y, p);
    }
  }

  /** Replacing an element by one the predicate judges alike keeps the first match. */
  lemma IndexWhereUpdate<T>(xs: seq<T>, i: nat, y: T, p: T -> bool)
    requires i < |xs|
    requires p(y) == p(xs[i])
    ensures IndexWhere(xs[i := y], p) == IndexWhere(xs, p)
  {
    var a, b := IndexWhere(xs, p), IndexWhere(xs[i := y], p);
    assert forall j :: 0 <= j < |xs| ==> p(xs[i := y][j]) == p(xs[j]);
    if a.Some? {
      assert p(xs[i := y][a.value]);
    }
    if b.Some? {
      assert p(xs[b.value]);
    }
  }

  lemma PairwiseAppend<T>(xs: seq<T>, y: T, rel: (T, T) -> bool)
    requires Pairwise(xs, rel)
    requires forall k :: 0 <= k < |xs| ==> rel(xs[k], y)
    ensures Pairwise(xs + [y], rel)
  {
    var r := xs + [y];
    forall i, j | 0 <= i < j < |r|
      ensures rel(r[i], r[j])
    {
      assert r[i] == xs[i];
      if j < |xs| {
        assert r[j] == xs[j];
      }
    }
  }

  lemma PairwiseUpdate<T>(xs: seq<T>, i: nat, y: T, rel: (T, T) -> bool)
    requires Pairwise(xs, rel)
    requires i < |xs|
    requires forall k :: 0 <= k < |xs| && k != i ==> rel(xs[k], y) == rel(xs[k], xs[i])
    requires forall k :: 0 <= k < |xs| && k != i ==> rel(y, xs[k]) == rel(xs[i], xs[k])
    ensures Pairwise(xs[i := y], rel)
  {
    var r := xs[i := y];
    forall a, b | 0 <= a < b < |r|
      ensures rel(r[a], r[b])
    {
      assert rel(xs[a], xs[b]);
    }
  }
}

=== FILE: serializers.dfy ===
/** The serializers of `social/serializers.py`: which fields each output shape
    exposes, which of them a request body may write, the derived fields
    (counts and name lists), rendering, and validation of request bodies. */
module Serializers {

  import opened Outcomes
  import opened Seqs
  import opened Models

  /** ProfileSerializer, ProfileDetailSerializer, ProfileCreateUpdateSerializer. */
  datatype ProfileShape = ProfileSummary | ProfileDetail | ProfileCreateUpdate

  /** ProfilePostsSerializer, PostSerializer, PostCreateUpdateSerializer. */
  datatype PostShape = ProfilePostRow | PostFull | PostCreateUpdate

  datatype ProfileField =
    | ProfileId | ProfileUser | ProfilePosts | FirstNameField | LastNameField | FullNameField
    | AvatarField | BiographyField | GenderField | FollowingField | FollowersField
    | FollowersCountField | PostsCountField

  datatype PostField =
    | PostId | AuthorField | PostProfileField | TitleField | ContentField | MediaField
    | HashtagField | CreatedAtField

  function ProfileFieldName(f: ProfileField): string {
    match f
    case ProfileId => "id"
    case ProfileUser => "user"
    case ProfilePosts => "posts"
    case FirstNameField => "first_name"
    case LastNameField => "last_name"
    case FullNameField => "full_name"
    case AvatarField => "avatar"
    case BiographyField => "biography"
    case GenderField => "gender"
    case FollowingField => "following"
    case FollowersField => "followers"
    case FollowersCountField => "followers_count"
    case PostsCountField => "posts_count"
  }

  function PostFieldName(f: PostField): string {
    match f
    case PostId => "id"
    case AuthorField => "author"
    case PostProfileField => "profile"
    case TitleField => "title"
    case ContentField => "content"
    case MediaField => "media_attachments"
    case HashtagField => "hashtag"
    case CreatedAtField => "created_at"
  }

  /** The `Meta.fields` tuple of each profile serializer, in order. */
  function ProfileFields(s: ProfileShape): seq<ProfileField> {
    match s
    case ProfileSummary =>
      [ProfileId, FullNameField, AvatarField, GenderField, FollowersCountField, PostsCountField]
    case ProfileDetail =>
      [ProfileId, ProfileUser, ProfilePosts, FirstNameField, LastNameField, AvatarField,
       BiographyField, GenderField, FollowingField, FollowersField]
    case ProfileCreateUpdate =>
      [ProfileId, FirstNameField, LastNameField, AvatarField, GenderField, FollowingField]
  }

  /** The `Meta.fields` tuple of each post serializer, in order. */
  function PostFields(s: PostShape): seq<PostField> {
    match s
    case ProfilePostRow => [PostId, TitleField, CreatedAtField]
    case PostFull =>
      [PostId, AuthorField, TitleField, ContentField, MediaField, HashtagField, CreatedAtField]
    case PostCreateUpdate =>
      [PostId, AuthorField, PostProfileField, TitleField, ContentField, MediaField, HashtagField,
       CreatedAtField]
  }

  /** Fields a profile serializer never takes from a body: the primary key,
      the `full_name` property, method fields and the declared read-only ones. */
  function ProfileReadOnly(s: ProfileShape): set<ProfileField> {
    match s
    case ProfileSummary => {ProfileId, FullNameField, FollowersCountField, PostsCountField}
    case ProfileDetail => {ProfileId, ProfileUser, ProfilePosts, FollowingField, FollowersField}
    case ProfileCreateUpdate => {ProfileId}
  }

  /** Fields a post serializer never takes from a body: the primary key,
      `created_at` (set on insert) and the ones declared read-only. */
  function PostReadOnly(s: PostShape): set<PostField> {
    match s
    case ProfilePostRow => {PostId, CreatedAtField}
    case PostFull => {PostId, AuthorField, CreatedAtField}
    case PostCreateUpdate => {PostId, AuthorField, PostProfileField, CreatedAtField}
  }

  /** The field names a profile shape renders, in order. */
  function ProfileFieldNames(s: ProfileShape): seq<string> {
    seq(|ProfileFields(s)|, i requires 0 <= i < |ProfileFields(s)| => ProfileFieldName(ProfileFields(s)[i]))
  }

  /** The field names a post shape renders, in order. */
  function PostFieldNames(s: PostShape): seq<string> {
    seq(|PostFields(s)|, i requires 0 <= i < |PostFields(s)| => PostFieldName(PostFields(s)[i]))
  }

  /** Each shape renders exactly the names of its serializer's `fields` tuple. */
  lemma FieldTuples()
    ensures ProfileFieldNames(ProfileSummary)
      == ["id", "full_name", "avatar", "gender", "followers_count", "posts_count"]
    ensures ProfileFieldNames(ProfileDetail)
      == ["id", "user", "posts", "first_name", "last_name", "avatar", "biography", "gender", "following", "followers"]
    ensures ProfileFieldNames(ProfileCreateUpdate)
      == ["id", "first_name", "last_name", "avatar", "gender", "following"]
    ensures PostFieldNames(ProfilePostRow) == ["id", "title", "created_at"]
    ensures PostFieldNames(PostFull)
      == ["id", "author", "title", "content", "media_attachments", "hashtag", "created_at"]
    ensures PostFieldNames(PostCreateUpdate)
      == ["id", "author", "profile", "title", "content", "media_attachments", "hashtag", "created_at"]
  {
  }

  /** The fields a body may set through each profile shape. */
  function ProfileWritable(s: ProfileShape): set<ProfileField> {
    match s
    case ProfileSummary => {AvatarField, GenderField}
    case ProfileDetail => {FirstNameField, LastNameField, AvatarField, BiographyField, GenderField}
    case ProfileCreateUpdate => {FirstNameField, LastNameField, AvatarField, GenderField, FollowingField}
  }

  /** The fields a body may set through each post shape. */
  function PostWritable(s: PostShape): set<PostField> {
    match s
    case ProfilePostRow => {TitleField}
    case _ => {TitleField, ContentField, MediaField, HashtagField}
  }

  /** The writable fields are exactly the listed fields that are not read-only. */
  lemma WritableIsListedMinusReadOnly()
    ensures forall s, f :: f in ProfileWritable(s) <==> f in ProfileFields(s) && f !in ProfileReadOnly(s)
    ensures forall s, f :: f in PostWritable(s) <==> f in PostFields(s) && f !in PostReadOnly(s)
  {
  }

  /** The read-only post fields as the code states them: `author` is declared
      on PostSerializer, so its `read_only_fields` entry has no effect there. */
  function PostReadOnlyAsWritten(s: PostShape): set<PostField> {
    match s
    case PostFull => {PostId, CreatedAtField}
    case _ => PostReadOnly(s)
  }

  function PostWritableAsWritten(s: PostShape): set<PostField> {
    match s
    case PostFull => {AuthorField, TitleField, ContentField, MediaField, HashtagField}
    case _ => PostWritable(s)
  }

  /** No shape lets a body set a profile's owner or a post's author or profile;
      the create-update profile shape carries no counts. */
  lemma OwnershipNeverWritable()
    ensures forall s: ProfileShape :: ProfileUser !in ProfileWritable(s)
    ensures forall s: PostShape :: AuthorField !in PostWritable(s) && PostProfileField !in PostWritable(s)
    ensures FollowersCountField !in ProfileFields(ProfileCreateUpdate)
    ensures PostsCountField !in ProfileFields(ProfileCreateUpdate)
  {
  }

  /** As written, PostSerializer (used for partial updates) accepts `author`
      from a body, unlike the intended read-only field. */
  lemma AuthorWritableAsWritten()
    ensures forall f :: f in PostWritableAsWritten(PostFull) <==>
      f in PostFields(PostFull) && f !in PostReadOnlyAsWritten(PostFull)
    ensures AuthorField in PostWritableAsWritten(PostFull)
    ensures AuthorField !in PostWritable(PostFull)
  {
  }

  // ---------------------------------------------------------------------
  // Derived fields

  /** Membership in `user.followers`: the profile follows user `u`. */
  function FollowsUser(u: UserId): Profile -> bool {
    (q: Profile) => u in q.following
  }

  /** `user.followers.all()`: the profiles whose `following` contains `u`. */
  function FollowerProfiles(ps: seq<Profile>, u: UserId): seq<Profile> {
    Narrow(ps, FollowsUser(u))
  }

  /** `obj.posts.all()`: the posts whose `profile` is this profile. */
  function PostsOf(qs: seq<Post>, p: Profile): seq<Post> {
    Narrow(qs, (x: Post) => x.profile == p.id)
  }

  function FullNames(ps: seq<Profile>): seq<string> {
    seq(|ps|, i requires 0 <= i < |ps| => FullName(ps[i]))
  }

  /** `get_followers_count`: the number of profiles that follow this profile's user. */
  function FollowersCount(s: Store, p: Profile): (n: nat)
    requires UniqueProfileIds(s.profiles)
    ensures n == |set q | q in s.profiles && p.user in q.following|
  {
    var fs := FollowerProfiles(s.profiles, p.user);
    UniqueIdsNoDups(s.profiles);
    NarrowKeepsNoDups(s.profiles, FollowsUser(p.user));
    NoDupsCard(fs);
    assert (set q | q in fs) == set q | q in s.profiles && p.user in q.following;
    |fs|
  }

  /** `get_posts_count`: the number of posts attached to this profile. */
  function PostsCount(s: Store, p: Profile): (n: nat)
    requires UniquePostIds(s.posts)
    ensures n == |set x | x in s.posts && x.profile == p.id|
  {
    var xs := PostsOf(s.posts, p);
    UniquePostIdsNoDups(s.posts);
    NarrowKeepsNoDups(s.posts, (x: Post) => x.profile == p.id);
    NoDupsCard(xs);
    assert (set x | x in xs) == set x | x in s.posts && x.profile == p.id;
    |xs|
  }

  /** The profiles of `fs` whose full name is `n`. */
  ghost function Carrying(fs: seq<Profile>, n: string): set<Profile> {
    set q | q in fs && FullName(q) == n
  }

  lemma FullNamesCons(fs: seq<Profile>)
    requires |fs| > 0
    ensures FullNames(fs) == [FullName(fs[0])] + FullNames(fs[1..])
  {
  }

  lemma CarryingCons(fs: seq<Profile>, n: string)
    requires |fs| > 0 && fs[0] !in fs[1..]
    ensures |Carrying(fs, n)| == |Carrying(fs[1..], n)| + (if FullName(fs[0]) == n then 1 else 0)
  {
    var t := fs[1..];
    assert forall q :: q in fs <==> q == fs[0] || q in t by {
      assert fs == [fs[0]] + t;
    }
    if FullName(fs[0]) == n {
      assert Carrying(fs, n) == Carrying(t, n) + {fs[0]};
    } else {
      assert Carrying(fs, n) == Carrying(t, n);
    }
  }

  /** Without duplicate profiles, a name occurs in the name list once per
      profile that carries it. */
  lemma {:induction false} NameMultiplicity(fs: seq<Profile>, n: string)
    requires NoDups(fs)
    ensures multiset(FullNames(fs))[n] == |Carrying(fs, n)|
    decreases |fs|
  {
    if |fs| == 0 {
      assert Carrying(fs, n) == {};
    } else {
      var t := fs[1..];
      FullNamesCons(fs);
      assert multiset(FullNames(fs)) == multiset{FullName(fs[0])} + multiset(FullNames(t));
      NoDupsTail(fs);
      NameMultiplicity(t, n);
      CarryingCons(fs, n);
    }
  }

  /** The stored profiles that follow user `u` and carry the full name `n`. */
  ghost function FollowersNamed(ps: seq<Profile>, u: UserId, n: string): set<Profile> {
    set q | q in ps && u in q.following && FullName(q) == n
  }

  /** A name occurs among the follower names once per follower profile that carries it. */
  lemma FollowerNameMultiplicity(ps: seq<Profile>, u: UserId, n: string)
    requires UniqueProfileIds(ps)
    ensures multiset(FullNames(FollowerProfiles(ps, u)))[n] == |FollowersNamed(ps, u, n)|
  {
    var fs := FollowerProfiles(ps, u);
    UniqueIdsNoDups(ps);
    NarrowKeepsNoDups(ps, FollowsUser(u));
    NameMultiplicity(fs, n);
    assert Carrying(fs, n) == FollowersNamed(ps, u, n);
  }

  /** `get_followers`: one full name per follower profile. */
  function FollowerNames(s: Store, p: Profile): (r: seq<string>)
    requires UniqueProfileIds(s.profiles)
    ensures |r| == FollowersCount(s, p)
    ensures forall q :: q in s.profiles && p.user in q.following ==> FullName(q) in r
    ensures forall i :: 0 <= i < |r| ==>
      exists q :: q in s.profiles && p.user in q.following && r[i] == FullName(q)
    ensures forall n :: multiset(r)[n] == |FollowersNamed(s.profiles, p.user, n)|
  {
    var fs := FollowerProfiles(s.profiles, p.user);
    var r := FullNames(fs);
    forall n
      ensures multiset(r)[n] == |FollowersNamed(s.profiles, p.user, n)|
    {
      FollowerNameMultiplicity(s.profiles, p.user, n);
    }
    FullNamesOfMembers(fs);
    assert forall i :: 0 <= i < |r| ==> fs[i] in fs && r[i] == FullName(fs[i]);
    r
  }

  /** Every profile of `fs` contributes its full name. */
  lemma FullNamesOfMembers(fs: seq<Profile>)
    ensures forall q :: q in fs ==> FullName(q) in FullNames(fs)
  {
    forall q | q in fs
      ensures FullName(q) in FullNames(fs)
    {
      var k :| 0 <= k < |fs| && fs[k] == q;
      assert FullNames(fs)[k] == FullName(q);
    }
  }

  /** Every followed user has a profile to take a name from. */
  predicate FollowedHaveProfiles(s: Store, p: Profile) {
    forall u :: u in p.following ==> ProfileOfUser(s.profiles, u).Some?
  }

  /** The profiles of the users this profile follows. */
  function FollowedProfiles(ps: seq<Profile>, p: Profile): seq<Profile> {
    Narrow(ps, (q: Profile) => q.user in p.following)
  }

  /** The users of the followed profiles are exactly the followed users. */
  lemma FollowedProfileUsers(ps: seq<Profile>, p: Profile)
    requires forall u :: u in p.following ==> ProfileOfUser(ps, u).Some?
    ensures (set q | q in FollowedProfiles(ps, p) :: UserOf(q)) == p.following
  {
    var fs := FollowedProfiles(ps, p);
    var keys := set q | q in fs :: UserOf(q);
    forall u | u in p.following
      ensures u in keys
    {
      var q := ProfileOfUser(ps, u).value;
      assert q in fs;
    }
  }

  /** With one profile per user, there is exactly one followed profile per followed user. */
  lemma FollowedProfilesCount(ps: seq<Profile>, p: Profile)
    requires OneProfilePerUser(ps)
    requires forall u :: u in p.following ==> ProfileOfUser(ps, u).Some?
    ensures |FollowedProfiles(ps, p)| == |p.following|
  {
    var fs := FollowedProfiles(ps, p);
    NarrowKeepsPairwise(ps, (q: Profile) => q.user in p.following, DistinctUsers);
    assert forall i, j :: 0 <= i < j < |fs| ==> UserOf(fs[i]) != UserOf(fs[j]) by {
      forall i, j | 0 <= i < j < |fs|
        ensures UserOf(fs[i]) != UserOf(fs[j])
      {
        assert DistinctUsers(fs[i], fs[j]);
      }
    }
    UsersCard(fs);
    FollowedProfileUsers(ps, p);
  }

  lemma UsersCard(fs: seq<Profile>)
    requires forall i, j :: 0 <= i < j < |fs| ==> UserOf(fs[i]) != UserOf(fs[j])
    ensures |set q | q in fs :: UserOf(q)| == |fs|
  {
    CardOfKeys(fs, UserOf);
    var a := set q | q in fs :: UserOf(q);
    forall u | u in a
      ensures u in Image(fs, UserOf)
    {
      var q :| q in fs && UserOf(q) == u;
    }
    forall u | u in Image(fs, UserOf)
      ensures u in a
    {
    }
    assert a == Image(fs, UserOf);
  }

  /** Each followed user's profile contributes its full name. */
  lemma FollowedNamesCover(ps: seq<Profile>, p: Profile)
    requires forall u :: u in p.following ==> ProfileOfUser(ps, u).Some?
    ensures forall u :: u in p.following ==>
      FullName(ProfileOfUser(ps, u).value) in FullNames(FollowedProfiles(ps, p))
  {
    var fs := FollowedProfiles(ps, p);
    var names := FullNames(fs);
    forall u | u in p.following
      ensures FullName(ProfileOfUser(ps, u).value) in names
    {
      var q := ProfileOfUser(ps, u).value;
      assert q in fs;
      var k :| 0 <= k < |fs| && fs[k] == q;
      assert names[k] == FullName(q);
    }
  }

  /** A name some followed user's profile carries. */
  predicate FollowedName(ps: seq<Profile>, p: Profile, name: string) {
    exists u :: u in p.following && ProfileOfUser(ps, u).Some? && name == FullName(ProfileOfUser(ps, u).value)
  }

  /** Every followed name is the full name of some followed user's profile. */
  lemma FollowedNamesOnly(ps: seq<Profile>, p: Profile)
    requires OneProfilePerUser(ps)
    ensures forall i :: 0 <= i < |FullNames(FollowedProfiles(ps, p))| ==>
      FollowedName(ps, p, FullNames(FollowedProfiles(ps, p))[i])
  {
    var fs := FollowedProfiles(ps, p);
    forall i | 0 <= i < |fs|
      ensures FollowedName(ps, p, FullNames(fs)[i])
    {
      var q := fs[i];
      assert q in fs;
      ProfileOfUserFinds(ps, q);
      assert FullNames(fs)[i] == FullName(ProfileOfUser(ps, q.user).value);
    }
  }

  /** The followed users whose profile carries the full name `n`. */
  ghost function UsersNamed(ps: seq<Profile>, p: Profile, n: string): set<UserId> {
    set u | u in p.following && ProfileOfUser(ps, u).Some? && FullName(ProfileOfUser(ps, u).value) == n
  }

  lemma FollowedProfilesNoDups(ps: seq<Profile>, p: Profile)
    requires OneProfilePerUser(ps)
    ensures NoDups(FollowedProfiles(ps, p))
  {
    var fs := FollowedProfiles(ps, p);
    NarrowKeepsPairwise(ps, (q: Profile) => q.user in p.following, DistinctUsers);
    forall i, j | 0 <= i < j < |fs|
      ensures fs[i] != fs[j]
    {
      assert DistinctUsers(fs[i], fs[j]);
    }
  }

  /** The followed profiles named `n` correspond one to one to the followed users named `n`. */
  lemma CarryingUsers(ps: seq<Profile>, p: Profile, n: string)
    requires OneProfilePerUser(ps)
    ensures |UsersNamed(ps, p, n)| == |Carrying(FollowedProfiles(ps, p), n)|
  {
    var carriers := Carrying(FollowedProfiles(ps, p), n);
    var users := UsersNamed(ps, p, n);
    forall a, b | a in carriers && b in carriers && UserOf(a) == UserOf(b)
      ensures a == b
    {
      ProfileOfUserFinds(ps, a);
      ProfileOfUserFinds(ps, b);
    }
    forall a | a in carriers
      ensures UserOf(a) in users
    {
      ProfileOfUserFinds(ps, a);
    }
    forall u | u in users
      ensures exists a :: a in carriers && UserOf(a) == u
    {
      var q := ProfileOfUser(ps, u).value;
      assert q in carriers && UserOf(q) == u;
    }
    Bijection(carriers, users, UserOf);
  }

  /** A name occurs among the followed profiles' names once per followed
      user whose profile carries it. */
  lemma FollowedNameMultiplicity(ps: seq<Profile>, p: Profile, n: string)
    requires OneProfilePerUser(ps)
    ensures multiset(FullNames(FollowedProfiles(ps, p)))[n] == |UsersNamed(ps, p, n)|
  {
    FollowedProfilesNoDups(ps, p);
    NameMultiplicity(FollowedProfiles(ps, p), n);
    CarryingUsers(ps, p, n);
  }

  /** `get_following`: the full name of each followed user's profile. A followed
      user without a profile makes the source raise; here that is an error. */
  function FollowingNames(s: Store, p: Profile): (r: Result<seq<string>>)
    requires OneProfilePerUser(s.profiles)
    ensures r.Ok? <==> FollowedHaveProfiles(s, p)
    ensures r.Err? ==> r.error == ProfileMissing
    ensures r.Ok? ==> |r.value| == |p.following|
    ensures r.Ok? ==> forall u :: u in p.following ==> FullName(ProfileOfUser(s.profiles, u).value) in r.value
    ensures r.Ok? ==> forall i :: 0 <= i < |r.value| ==> FollowedName(s.profiles, p, r.value[i])
    ensures r.Ok? ==>
      forall n :: multiset(r.value)[n] == |UsersNamed(s.profiles, p, n)|
  {
    if !FollowedHaveProfiles(s, p) then Err(ProfileMissing)
    else
      FollowedProfilesCount(s.profiles, p);
      FollowedNamesCover(s.profiles, p);
      FollowedNamesOnly(s.profiles, p);
      forall n
        ensures multiset(FullNames(FollowedProfiles(s.profiles, p)))[n] == |UsersNamed(s.profiles, p, n)|
      {
        FollowedNameMultiplicity(s.profiles, p, n);
      }
      Ok(FullNames(FollowedProfiles(s.profiles, p)))
  }

  // ---------------------------------------------------------------------
  // Rendering

  datatype Value =
    | Num(n: int)
    | Text(s: string)
    | UserRef(u: UserId)          // the nested user serializer, which is not part of this model
    | IdSet(ids: set<int>)
    | Names(names: seq<string>)
    | Rows(rows: seq<seq<(string, Value)>>)

  /** A serialized object: field names with their values, in field order. */
  type Rendered = seq<(string, Value)>

  function Keys(r: Rendered): seq<string> {
    seq(|r|, i requires 0 <= i < |r| => r[i].0)
  }

  /** The value under a key of a rendered object. */
  function Get(r: Rendered, k: string): Option<Value> {
    match IndexWhere(r, (e: (string, Value)) => e.0 == k)
    case Some(i) => Some(r[i].1)
    case None => None
  }

  lemma GetAt(r: Rendered, i: nat)
    requires i < |r|
    requires forall j :: 0 <= j < i ==> r[j].0 != r[i].0
    ensures Get(r, r[i].0) == Some(r[i].1)
  {
  }

  /** The store facts rendering relies on (primary keys and the one-to-one link). */
  predicate Keyed(s: Store) {
    UniqueProfileIds(s.profiles) && OneProfilePerUser(s.profiles) && UniquePostIds(s.posts)
  }

  function PostRow(x: Post): Rendered {
    [("id", Num(x.id)), ("title", Text(x.title)), ("created_at", Num(x.createdAt))]
  }

  function PostRows(xs: seq<Post>): seq<Rendered> {
    seq(|xs|, i requires 0 <= i < |xs| => PostRow(xs[i]))
  }

  function ProfileFieldValue(s: Store, shape: ProfileShape, p: Profile, f: ProfileField): Value
    requires Keyed(s)
    requires shape == ProfileDetail && f == FollowingField ==> FollowedHaveProfiles(s, p)
  {
    match f
    case ProfileId => Num(p.id)
    case ProfileUser => UserRef(p.user)
    case ProfilePosts => Rows(PostRows(PostsNewestFirst(PostsOf(s.posts, p))))
    case FirstNameField => Text(p.firstName)
    case LastNameField => Text(p.lastName)
    case FullNameField => Text(FullName(p))
    case AvatarField => Text(p.avatar)
    case BiographyField => Text(p.biography)
    case GenderField => Text(GenderValue(p.gender))
    case FollowingField =>
      if shape == ProfileDetail then Names(FollowingNames(s, p).value) else IdSet(p.following)
    case FollowersField => Names(FollowerNames(s, p))
    case FollowersCountField => Num(FollowersCount(s, p))
    case PostsCountField => Num(PostsCount(s, p))
  }

  /** Serializes a profile with one of the three shapes. Only the detail shape
      can fail: its `following` list needs every followed user's profile. */
  function RenderProfile(s: Store, shape: ProfileShape, p: Profile): (r: Result<Rendered>)
    requires Keyed(s)
    ensures r.Ok? <==> (shape == ProfileDetail ==> FollowedHaveProfiles(s, p))
    ensures r.Err? ==> r.error == ProfileMissing
    ensures r.Ok? ==> Keys(r.value) == ProfileFieldNames(shape)
  {
    if shape == ProfileDetail && !FollowedHaveProfiles(s, p) then Err(ProfileMissing)
    else
      var fs := ProfileFields(shape);
      Ok(seq(|fs|, i requires 0 <= i < |fs| => (ProfileFieldName(fs[i]), ProfileFieldValue(s, shape, p, fs[i]))))
  }

  function PostFieldValue(s: Store, shape: PostShape, x: Post, f: PostField): Value
    requires ProfileById(s.profiles, x.profile).Some?
  {
    match f
    case PostId => Num(x.id)
    case AuthorField =>
      if shape == PostCreateUpdate then UserRef(x.author)
      else Text(FullName(ProfileById(s.profiles, x.profile).value))
    case PostProfileField => Num(x.profile)
    case TitleField => Text(x.title)
    case ContentField => Text(x.content)
    case MediaField => Text(x.mediaAttachments)
    case HashtagField => Text(x.hashtag)
    case CreatedAtField => Num(x.createdAt)
  }

  /** Serializes a post with one of the three shapes. */
  function RenderPost(s: Store, shape: PostShape, x: Post): (r: Rendered)
    requires ProfileById(s.profiles, x.profile).Some?
    ensures Keys(r) == PostFieldNames(shape)
  {
    var fs := PostFields(shape);
    seq(|fs|, i requires 0 <= i < |fs| => (PostFieldName(fs[i]), PostFieldValue(s, shape, x, fs[i])))
  }

  /** The summary shape reports the full name and both counts as set sizes. */
  lemma SummaryValues(s: Store, p: Profile)
    requires Keyed(s)
    ensures RenderProfile(s, ProfileSummary, p).Ok?
    ensures Get(RenderProfile(s, ProfileSummary, p).value, "id") == Some(Num(p.id))
    ensures Get(RenderProfile(s, ProfileSummary, p).value, "full_name") == Some(Text(FullName(p)))
    ensures Get(RenderProfile(s, ProfileSummary, p).value, "followers_count")
      == Some(Num(|set q | q in s.profiles && p.user in q.following|))
    ensures Get(RenderProfile(s, ProfileSummary, p).value, "posts_count")
      == Some(Num(|set x | x in s.posts && x.profile == p.id|))
  {
    SummaryHead(s, p);
    SummaryCounts(s, p);
    var r := RenderProfile(s, ProfileSummary, p).value;
    GetAt(r, 0);
    GetAt(r, 1);
    GetAt(r, 4);
    GetAt(r, 5);
  }

  /** The first four entries of a summary row. */
  lemma SummaryHead(s: Store, p: Profile)
    requires Keyed(s)
    ensures RenderProfile(s, ProfileSummary, p).Ok?
    ensures var r := RenderProfile(s, ProfileSummary, p).value;
      && |r| == 6
      && r[0] == ("id", Num(p.id)) && r[1] == ("full_name", Text(FullName(p))) && r[2].0 == "avatar" && r[3].0 == "gender"
  {
    var fs := ProfileFields(ProfileSummary);
    assert fs[..4] == [ProfileId, FullNameField, AvatarField, GenderField];
    RenderedAt(s, ProfileSummary, p, 0);
    RenderedAt(s, ProfileSummary, p, 1);
    RenderedAt(s, ProfileSummary, p, 2);
    RenderedAt(s, ProfileSummary, p, 3);
  }

  /** The two count entries of a summary row. */
  lemma SummaryCounts(s: Store, p: Profile)
    requires Keyed(s)
    ensures RenderProfile(s, ProfileSummary, p).Ok?
    ensures var r := RenderProfile(s, ProfileSummary, p).value;
      && |r| == 6
      && r[4] == ("followers_count", Num(FollowersCount(s, p))) && r[5] == ("posts_count", Num(PostsCount(s, p)))
  {
    var fs := ProfileFields(ProfileSummary);
    assert fs[4] == FollowersCountField && fs[5] == PostsCountField;
    RenderedAt(s, ProfileSummary, p, 4);
    RenderedAt(s, ProfileSummary, p, 5);
  }

  /** Entry `i` of a rendered profile is field `i` of the shape with its value. */
  lemma RenderedAt(s: Store, shape: ProfileShape, p: Profile, i: nat)
    requires Keyed(s) && i < |ProfileFields(shape)|
    requires shape == ProfileDetail ==> FollowedHaveProfiles(s, p)
    ensures RenderProfile(s, shape, p).Ok?
    ensures |RenderProfile(s, shape, p).value| == |ProfileFields(shape)|
    ensures RenderProfile(s, shape, p).value[i]
      == (ProfileFieldName(ProfileFields(shape)[i]), ProfileFieldValue(s, shape, p, ProfileFields(shape)[i]))
  {
  }

  /** The first five entries of a detail rendering. */
  lemma DetailHead(s: Store, p: Profile)
    requires Keyed(s) && FollowedHaveProfiles(s, p)
    ensures RenderProfile(s, ProfileDetail, p).Ok?
    ensures var r := RenderProfile(s, ProfileDetail, p).value;
      && |r| == 10
      && r[0] == ("id", Num(p.id)) && r[1] == ("user", UserRef(p.user))
      && r[2] == ("posts", Rows(PostRows(PostsNewestFirst(PostsOf(s.posts, p)))))
      && r[3] == ("first_name", Text(p.firstName)) && r[4] == ("last_name", Text(p.lastName))
  {
    var fs := ProfileFields(ProfileDetail);
    assert fs[..5] == [ProfileId, ProfileUser, ProfilePosts, FirstNameField, LastNameField];
    RenderedAt(s, ProfileDetail, p, 0);
    RenderedAt(s, ProfileDetail, p, 1);
    RenderedAt(s, ProfileDetail, p, 2);
    RenderedAt(s, ProfileDetail, p, 3);
    RenderedAt(s, ProfileDetail, p, 4);
  }

  /** Entries five to seven of a detail rendering. */
  lemma DetailMiddle(s: Store, p: Profile)
    requires Keyed(s) && FollowedHaveProfiles(s, p)
    ensures RenderProfile(s, ProfileDetail, p).Ok?
    ensures var r := RenderProfile(s, ProfileDetail, p).value;
      && |r| == 10
      && r[5] == ("avatar", Text(p.avatar)) && r[6] == ("biography", Text(p.biography))
      && r[7] == ("gender", Text(GenderValue(p.gender)))
  {
    var fs := ProfileFields(ProfileDetail);
    assert fs[5] == AvatarField && fs[6] == BiographyField && fs[7] == GenderField;
    RenderedAt(s, ProfileDetail, p, 5);
    RenderedAt(s, ProfileDetail, p, 6);
    RenderedAt(s, ProfileDetail, p, 7);
  }

  /** The `following` entry of a detail rendering. */
  lemma DetailFollowingEntry(s: Store, p: Profile)
    requires Keyed(s) && FollowedHaveProfiles(s, p)
    ensures RenderProfile(s, ProfileDetail, p).Ok?
    ensures var r := RenderProfile(s, ProfileDetail, p).value;
      |r| == 10 && r[8] == ("following", ProfileFieldValue(s, ProfileDetail, p, FollowingField))
  {
    assert ProfileFields(ProfileDetail)[8] == FollowingField;
    RenderedAt(s, ProfileDetail, p, 8);
  }

  /** The `followers` entry of a detail rendering. */
  lemma DetailFollowersEntry(s: Store, p: Profile)
    requires Keyed(s) && FollowedHaveProfiles(s, p)
    ensures RenderProfile(s, ProfileDetail, p).Ok?
    ensures var r := RenderProfile(s, ProfileDetail, p).value;
      |r| == 10 && r[9] == ("followers", ProfileFieldValue(s, ProfileDetail, p, FollowersField))
  {
    assert ProfileFields(ProfileDetail)[9] == FollowersField;
    RenderedAt(s, ProfileDetail, p, 9);
  }

  /** The `following` value the detail shape renders. */
  lemma DetailFollowingValue(s: Store, p: Profile)
    requires Keyed(s) && FollowedHaveProfiles(s, p)
    ensures FollowingNames(s, p).Ok?
    ensures ProfileFieldValue(s, ProfileDetail, p, FollowingField) == Names(FollowingNames(s, p).value)
  {
    var r := FollowingNames(s, p);
    assert r.Ok?;
  }

  /** The `followers` value the detail shape renders. */
  lemma DetailFollowersValue(s: Store, p: Profile)
    requires Keyed(s)
    ensures ProfileFieldValue(s, ProfileDetail, p, FollowersField) == Names(FollowerNames(s, p))
  {
  }

  /** Every key of a detail rendering occurs once, so `Get` finds its entry. */
  lemma GetDetail(r: Rendered, i: nat)
    requires Keys(r) == ProfileFieldNames(ProfileDetail) && i < |r|
    ensures Get(r, r[i].0) == Some(r[i].1)
  {
    FieldTuples();
    assert forall j :: 0 <= j < |r| ==> r[j].0 == Keys(r)[j];
    GetAt(r, i);
  }

  /** The detail rendering carries the profile's own fields as stored. */
  lemma DetailValues(s: Store, p: Profile)
    requires Keyed(s) && FollowedHaveProfiles(s, p)
    ensures RenderProfile(s, ProfileDetail, p).Ok?
    ensures Get(RenderProfile(s, ProfileDetail, p).value, "id") == Some(Num(p.id))
    ensures Get(RenderProfile(s, ProfileDetail, p).value, "user") == Some(UserRef(p.user))
    ensures Get(RenderProfile(s, ProfileDetail, p).value, "first_name") == Some(Text(p.firstName))
    ensures Get(RenderProfile(s, ProfileDetail, p).value, "last_name") == Some(Text(p.lastName))
    ensures Get(RenderProfile(s, ProfileDetail, p).value, "avatar") == Some(Text(p.avatar))
    ensures Get(RenderProfile(s, ProfileDetail, p).value, "biography") == Some(Text(p.biography))
    ensures Get(RenderProfile(s, ProfileDetail, p).value, "gender") == Some(Text(GenderValue(p.gender)))
  {
    DetailHead(s, p);
    DetailMiddle(s, p);
    var r := RenderProfile(s, ProfileDetail, p).value;
    GetDetail(r, 0);
    GetDetail(r, 1);
    GetDetail(r, 3);
    GetDetail(r, 4);
    GetDetail(r, 5);
    GetDetail(r, 6);
    GetDetail(r, 7);
  }

  /** The derived lists of the detail rendering: the profile's posts newest
      first, the names of the followed users' profiles, and the names of the
      follower profiles. */
  lemma DetailLists(s: Store, p: Profile)
    requires Keyed(s) && FollowedHaveProfiles(s, p)
    ensures RenderProfile(s, ProfileDetail, p).Ok? && FollowingNames(s, p).Ok?
    ensures Get(RenderProfile(s, ProfileDetail, p).value, "posts")
      == Some(Rows(PostRows(PostsNewestFirst(PostsOf(s.posts, p)))))
    ensures Get(RenderProfile(s, ProfileDetail, p).value, "following") == Some(Names(FollowingNames(s, p).value))
    ensures Get(RenderProfile(s, ProfileDetail, p).value, "followers") == Some(Names(FollowerNames(s, p)))
  {
    DetailHead(s, p);
    DetailFollowingEntry(s, p);
    DetailFollowersEntry(s, p);
    DetailFollowingValue(s, p);
    DetailFollowersValue(s, p);
    var r := RenderProfile(s, ProfileDetail, p).value;
    GetDetail(r, 2);
    GetDetail(r, 8);
    GetDetail(r, 9);
  }

  /** A post's `author` label in the list and detail shape is the full name of
      the author's own profile. */
  lemma PostAuthorLabel(s: Store, x: Post)
    requires Valid(s)
    requires x in s.posts
    ensures ProfileById(s.profiles, x.profile).Some?
    ensures Get(RenderPost(s, PostFull, x), "author")
      == Some(Text(FullName(ProfileOfUser(s.profiles, x.author).value)))
  {
    var p := ProfileById(s.profiles, x.profile).value;
    ProfileOfUserFinds(s.profiles, p);
    var r := RenderPost(s, PostFull, x);
    assert r[1].0 == "author" && r[0].0 == "id";
    GetAt(r, 1);
  }

  // ---------------------------------------------------------------------
  // Request bodies

  datatype Json = JText(s: string) | JIds(ids: set<int>) | JNum(n: int)

  /** A request body: whatever keys the client sent. */
  type Body = map<string, Json>

  /** The field rule a model text field induces: blank allowed (and then not
      required) and an optional length bound. */
  datatype TextRule = TextRule(allowBlank: bool, maxLength: Option<nat>)

  const NameRule := TextRule(false, Some(NameMaxLength))
  const UrlRule := TextRule(false, Some(UrlMaxLength))
  const BiographyRule := TextRule(true, None)
  const TitleRule := TextRule(false, Some(TitleMaxLength))
  const ContentRule := TextRule(false, None)
  const HashtagRule := TextRule(true, Some(HashtagMaxLength))

  predicate Admits(rule: TextRule, v: string) {
    && (v == "" ==> rule.allowBlank)
    && (rule.maxLength.Some? ==> |v| <= rule.maxLength.value)
  }

  /** Whether a body's text field passes validation: a sent value must be a
      string the rule admits; a missing one is fine in a PATCH or when the
      field may be blank (and so is not required). */
  predicate TextAdmissible(body: Body, key: string, rule: TextRule, partial: bool) {
    if key in body then body[key].JText? && Admits(rule, body[key].s)
    else partial || rule.allowBlank
  }

  /** Whether a body's `gender` passes validation: one of the three choices,
      required unless the update is partial. */
  predicate GenderAdmissible(body: Body, partial: bool) {
    if "gender" in body then body["gender"].JText? && ParseGender(body["gender"].s).Some?
    else partial
  }

  /** Whether a body's `following` passes validation: optional, and only
      registered users. */
  predicate FollowingAdmissible(users: set<UserId>, body: Body) {
    "following" in body ==> body["following"].JIds? && body["following"].ids <= users
  }

  /** One text field of a body. A missing field keeps `current`, unless the
      field is required and the update is not partial. */
  function ReadText(body: Body, key: string, rule: TextRule, partial: bool, current: string): (r: Result<string>)
    ensures r.Ok? <==> TextAdmissible(body, key, rule, partial)
    ensures r.Ok? && key in body ==> body[key] == JText(r.value) && Admits(rule, r.value)
    ensures r.Ok? && key !in body ==> r.value == current
    ensures r.Err? ==> r.error == ValidationFailed(key)
    ensures key !in body && !partial && !rule.allowBlank ==> r.Err?
  {
    if key !in body then
      if partial || rule.allowBlank then Ok(current) else Err(ValidationFailed(key))
    else
      match body[key]
      case JText(v) => if Admits(rule, v) then Ok(v) else Err(ValidationFailed(key))
      case _ => Err(ValidationFailed(key))
  }

  /** The `gender` choice field: one of the three stored values. */
  function ReadGender(body: Body, partial: bool, current: Gender): (r: Result<Gender>)
    ensures r.Ok? <==> GenderAdmissible(body, partial)
    ensures r.Ok? && "gender" in body ==> body["gender"] == JText(GenderValue(r.value))
    ensures r.Ok? && "gender" !in body ==> r.value == current
    ensures r.Err? ==> r.error == ValidationFailed("gender")
  {
    if "gender" !in body then
      if partial then Ok(current) else Err(ValidationFailed("gender"))
    else
      match body["gender"]
      case JText(v) => FromOption(ParseGender(v), ValidationFailed("gender"))
      case _ => Err(ValidationFailed("gender"))
  }

  /** The `following` many-to-many field: optional, every id a registered user. */
  function ReadFollowing(users: set<UserId>, body: Body, current: set<UserId>): (r: Result<set<UserId>>)
    ensures r.Ok? <==> FollowingAdmissible(users, body)
    ensures r.Ok? ==> r.value <= users || r.value == current
    ensures r.Ok? && "following" in body ==> body["following"] == JIds(r.value) && r.value <= users
    ensures r.Ok? && "following" !in body ==> r.value == current
    ensures r.Err? ==> r.error == ValidationFailed("following")
  {
    if "following" !in body then Ok(current)
    else
      match body["following"]
      case JIds(ids) => if ids <= users then Ok(ids) else Err(ValidationFailed("following"))
      case _ => Err(ValidationFailed("following"))
  }

  /** How one field stands once a body is applied: a writable field the body
      carries takes the sent value (`sent` encodes the new value as the body
      would); every other field is `kept`. */
  predicate FieldApplied(writable: bool, body: Body, key: string, kept: bool, sent: Json) {
    if writable && key in body then body[key] == sent else kept
  }

  /** A text field of a shape: read from the body when writable, kept otherwise. */
  function ApplyText(writable: bool, body: Body, key: string, rule: TextRule, partial: bool, current: string): (r: Result<string>)
    ensures r.Ok? <==> (writable ==> TextAdmissible(body, key, rule, partial))
    ensures r.Ok? ==> FieldApplied(writable, body, key, r.value == current, JText(r.value))
    ensures r.Err? ==> r.error == ValidationFailed(key)
  {
    if writable then ReadText(body, key, rule, partial, current) else Ok(current)
  }

  /** The `gender` field of a shape: read from the body when writable, kept otherwise. */
  function ApplyGender(writable: bool, body: Body, partial: bool, current: Gender): (r: Result<Gender>)
    ensures r.Ok? <==> (writable ==> GenderAdmissible(body, partial))
    ensures r.Ok? ==> FieldApplied(writable, body, "gender", r.value == current, JText(GenderValue(r.value)))
    ensures r.Err? ==> r.error == ValidationFailed("gender")
  {
    if writable then ReadGender(body, partial, current) else Ok(current)
  }

  /** The `following` field of a shape: read from the body when writable, kept otherwise. */
  function ApplyFollowing(writable: bool, users: set<UserId>, body: Body, current: set<UserId>): (r: Result<set<UserId>>)
    ensures r.Ok? <==> (writable ==> FollowingAdmissible(users, body))
    ensures r.Ok? ==> FieldApplied(writable, body, "following", r.value == current, JIds(r.value))
    ensures r.Err? ==> r.error == ValidationFailed("following")
  {
    if writable then ReadFollowing(users, body, current) else Ok(current)
  }

  /** Whether a body passes validation against a profile shape: every
      writable field is admissible. Validation does not look at the instance. */
  predicate ProfileBodyAdmissible(users: set<UserId>, shape: ProfileShape, body: Body, partial: bool) {
    var w := ProfileWritable(shape);
    && (FirstNameField in w ==> TextAdmissible(body, "first_name", NameRule, partial))
    && (LastNameField in w ==> TextAdmissible(body, "last_name", NameRule, partial))
    && (AvatarField in w ==> TextAdmissible(body, "avatar", UrlRule, partial))
    && (BiographyField in w ==> TextAdmissible(body, "biography", BiographyRule, partial))
    && (GenderField in w ==> GenderAdmissible(body, partial))
    && (FollowingField in w ==> FollowingAdmissible(users, body))
  }

  /** Whether a body passes validation against a post shape. */
  predicate PostBodyAdmissible(shape: PostShape, body: Body, partial: bool) {
    var w := PostWritable(shape);
    && (TitleField in w ==> TextAdmissible(body, "title", TitleRule, partial))
    && (ContentField in w ==> TextAdmissible(body, "content", ContentRule, partial))
    && (MediaField in w ==> TextAdmissible(body, "media_attachments", UrlRule, partial))
    && (HashtagField in w ==> TextAdmissible(body, "hashtag", HashtagRule, partial))
  }

  /** Validates a body against a profile shape and applies the writable fields to `p`. */
  function ApplyProfileBody(users: set<UserId>, shape: ProfileShape, p: Profile, body: Body, partial: bool): (r: Result<Profile>)
    ensures r.Ok? <==> ProfileBodyAdmissible(users, shape, body, partial)
    ensures r.Ok? ==> r.value.id == p.id && r.value.user == p.user
    ensures r.Ok? ==> FieldApplied(FirstNameField in ProfileWritable(shape), body, "first_name",
                                   r.value.firstName == p.firstName, JText(r.value.firstName))
    ensures r.Ok? ==> FieldApplied(LastNameField in ProfileWritable(shape), body, "last_name",
                                   r.value.lastName == p.lastName, JText(r.value.lastName))
    ensures r.Ok? ==> FieldApplied(AvatarField in ProfileWritable(shape), body, "avatar",
                                   r.value.avatar == p.avatar, JText(r.value.avatar))
    ensures r.Ok? ==> FieldApplied(BiographyField in ProfileWritable(shape), body, "biography",
                                   r.value.biography == p.biography, JText(r.value.biography))
    ensures r.Ok? ==> FieldApplied(GenderField in ProfileWritable(shape), body, "gender",
                                   r.value.gender == p.gender, JText(GenderValue(r.value.gender)))
    ensures r.Ok? ==> FieldApplied(FollowingField in ProfileWritable(shape), body, "following",
                                   r.value.following == p.following, JIds(r.value.following))
    ensures r.Err? ==> r.error.ValidationFailed?
  {
    var w := ProfileWritable(shape);
    var first :- ApplyText(FirstNameField in w, body, "first_name", NameRule, partial, p.firstName);
    var last :- ApplyText(LastNameField in w, body, "last_name", NameRule, partial, p.lastName);
    var avatar :- ApplyText(AvatarField in w, body, "avatar", UrlRule, partial, p.avatar);
    var bio :- ApplyText(BiographyField in w, body, "biography", BiographyRule, partial, p.biography);
    var gender :- ApplyGender(GenderField in w, body, partial, p.gender);
    var following :- ApplyFollowing(FollowingField in w, users, body, p.following);
    Ok(p.(firstName := first, lastName := last, avatar := avatar, biography := bio, gender := gender, following := following))
  }

  /** Validates a body against a post shape and applies the writable fields to `x`. */
  function ApplyPostBody(shape: PostShape, x: Post, body: Body, partial: bool): (r: Result<Post>)
    ensures r.Ok? <==> PostBodyAdmissible(shape, body, partial)
    ensures r.Ok? ==> r.value.id == x.id && r.value.author == x.author && r.value.profile == x.profile
    ensures r.Ok? ==> r.value.createdAt == x.createdAt
    ensures r.Ok? ==> FieldApplied(TitleField in PostWritable(shape), body, "title",
                                   r.value.title == x.title, JText(r.value.title))
    ensures r.Ok? ==> FieldApplied(ContentField in PostWritable(shape), body, "content",
                                   r.value.content == x.content, JText(r.value.content))
    ensures r.Ok? ==> FieldApplied(MediaField in PostWritable(shape), body, "media_attachments",
                                   r.value.mediaAttachments == x.mediaAttachments, JText(r.value.mediaAttachments))
    ensures r.Ok? ==> FieldApplied(HashtagField in PostWritable(shape), body, "hashtag",
                                   r.value.hashtag == x.hashtag, JText(r.value.hashtag))
    ensures r.Err? ==> r.error.ValidationFailed?
  {
    var w := PostWritable(shape);
    var title :- ApplyText(TitleField in w, body, "title", TitleRule, partial, x.title);
    var content :- ApplyText(ContentField in w, body, "content", ContentRule, partial, x.content);
    var media :- ApplyText(MediaField in w, body, "media_attachments", UrlRule, partial, x.mediaAttachments);
    var hashtag :- ApplyText(HashtagField in w, body, "hashtag", HashtagRule, partial, x.hashtag);
    Ok(x.(title := title, content := content, mediaAttachments := media, hashtag := hashtag))
  }

  /** Two bodies carry the same value, or both lack, key `k`. */
  predicate SameKey(b1: Body, b2: Body, k: string) {
    (k in b1 <==> k in b2) && (k in b1 ==> b1[k] == b2[k])
  }

  lemma ReadTextAgree(b1: Body, b2: Body, key: string, rule: TextRule, partial: bool, cur: string)
    requires SameKey(b1, b2, key)
    ensures ReadText(b1, key, rule, partial, cur) == ReadText(b2, key, rule, partial, cur)
  {
  }

  lemma ReadGenderAgree(b1: Body, b2: Body, partial: bool, g: Gender)
    requires SameKey(b1, b2, "gender")
    ensures ReadGender(b1, partial, g) == ReadGender(b2, partial, g)
  {
  }

  lemma ReadFollowingAgree(users: set<UserId>, b1: Body, b2: Body, f: set<UserId>)
    requires SameKey(b1, b2, "following")
    ensures ReadFollowing(users, b1, f) == ReadFollowing(users, b2, f)
  {
  }

  /** Keys outside the shape's writable fields (`user`, `id`, counts, ...) are ignored. */
  lemma ProfileBodyIgnoresReadOnly(users: set<UserId>, shape: ProfileShape, p: Profile, b1: Body, b2: Body, partial: bool)
    requires forall f :: f in ProfileWritable(shape) ==> SameKey(b1, b2, ProfileFieldName(f))
    ensures ApplyProfileBody(users, shape, p, b1, partial) == ApplyProfileBody(users, shape, p, b2, partial)
  {
    var w := ProfileWritable(shape);
    assert AvatarField in w && GenderField in w;
    ReadTextAgree(b1, b2, "avatar", UrlRule, partial, p.avatar);
    ReadGenderAgree(b1, b2, partial, p.gender);
    if shape != ProfileSummary {
      assert FirstNameField in w && LastNameField in w;
      ReadTextAgree(b1, b2, "first_name", NameRule, partial, p.firstName);
      ReadTextAgree(b1, b2, "last_name", NameRule, partial, p.lastName);
      if shape == ProfileDetail {
        assert BiographyField in w;
        ReadTextAgree(b1, b2, "biography", BiographyRule, partial, p.biography);
      } else {
        assert FollowingField in w;
        ReadFollowingAgree(users, b1, b2, p.following);
      }
    }
    ApplyProfileBodyAgrees(users, shape, p, b1, b2, partial);
  }

  /** `ApplyProfileBody` reads the body only through its six field readers. */
  lemma ApplyProfileBodyAgrees(users: set<UserId>, shape: ProfileShape, p: Profile, b1: Body, b2: Body, partial: bool)
    requires var w := ProfileWritable(shape);
      && (FirstNameField in w ==> ReadText(b1, "first_name", NameRule, partial, p.firstName) == ReadText(b2, "first_name", NameRule, partial, p.firstName))
      && (LastNameField in w ==> ReadText(b1, "last_name", NameRule, partial, p.lastName) == ReadText(b2, "last_name", NameRule, partial, p.lastName))
      && (AvatarField in w ==> ReadText(b1, "avatar", UrlRule, partial, p.avatar) == ReadText(b2, "avatar", UrlRule, partial, p.avatar))
      && (BiographyField in w ==> ReadText(b1, "biography", BiographyRule, partial, p.biography) == ReadText(b2, "biography", BiographyRule, partial, p.biography))
      && (GenderField in w ==> ReadGender(b1, partial, p.gender) == ReadGender(b2, partial, p.gender))
      && (FollowingField in w ==> ReadFollowing(users, b1, p.following) == ReadFollowing(users, b2, p.following))
    ensures ApplyProfileBody(users, shape, p, b1, partial) == ApplyProfileBody(users, shape, p, b2, partial)
  {
  }

  /** Keys outside the shape's writable fields (`author`, `profile`, `id`, ...) are ignored. */
  lemma PostBodyIgnoresReadOnly(shape: PostShape, x: Post, b1: Body, b2: Body, partial: bool)
    requires forall f :: f in PostWritable(shape) ==> SameKey(b1, b2, PostFieldName(f))
    ensures ApplyPostBody(shape, x, b1, partial) == ApplyPostBody(shape, x, b2, partial)
  {
    var w := PostWritable(shape);
    if TitleField in w {
      ReadTextAgree(b1, b2, "title", TitleRule, partial, x.title);
    }
    if ContentField in w {
      ReadTextAgree(b1, b2, "content", ContentRule, partial, x.content);
    }
    if MediaField in w {
      ReadTextAgree(b1, b2, "media_attachments", UrlRule, partial, x.mediaAttachments);
    }
    if HashtagField in w {
      ReadTextAgree(b1, b2, "hashtag", HashtagRule, partial, x.hashtag);
    }
  }

  /** A full (non-partial) create-update body yields a profile within the field bounds;
      a partial one keeps a valid profile valid. */
  lemma ProfileBodyValid(users: set<UserId>, shape: ProfileShape, p: Profile, body: Body, partial: bool)
    requires shape == ProfileCreateUpdate || shape == ProfileSummary
    requires partial || shape == ProfileCreateUpdate
    requires p.following <= users
    ensures var r := ApplyProfileBody(users, shape, p, body, partial);
      r.Ok? ==> r.value.following <= users && ((partial ==> ValidProfile(p)) ==> ValidProfile(r.value))
  {
    assert FirstNameField in ProfileFields(ProfileCreateUpdate);
    assert LastNameField in ProfileFields(ProfileCreateUpdate);
    assert AvatarField in ProfileFields(ProfileCreateUpdate);
    assert AvatarField in ProfileFields(ProfileSummary);
  }

  /** A full create-update body yields a post within the field bounds; a
      partial one keeps a valid post valid. */
  lemma PostBodyValid(shape: PostShape, x: Post, body: Body, partial: bool)
    requires shape == PostCreateUpdate || shape == PostFull
    requires !partial ==> shape == PostCreateUpdate
    ensures var r := ApplyPostBody(shape, x, body, partial);
      r.Ok? && (partial ==> ValidPost(x)) && |x.hashtag| <= HashtagMaxLength ==> ValidPost(r.value)
  {
    assert TitleField in PostFields(shape);
    assert ContentField in PostFields(shape);
    assert MediaField in PostFields(shape);
    assert HashtagField in PostFields(shape);
  }

  /** A full create-update body must carry every required profile field, and
      the profile takes the submitted values. */
  lemma FullProfileBodyFields(users: set<UserId>, p: Profile, body: Body)
    ensures var r := ApplyProfileBody(users, ProfileCreateUpdate, p, body, false);
      r.Ok? ==>
        && "first_name" in body && body["first_name"] == JText(r.value.firstName)
        && "last_name" in body && body["last_name"] == JText(r.value.lastName)
        && "avatar" in body && body["avatar"] == JText(r.value.avatar)
        && "gender" in body && body["gender"] == JText(GenderValue(r.value.gender))
  {
    var w := ProfileWritable(ProfileCreateUpdate);
    assert FirstNameField in w && LastNameField in w && AvatarField in w && GenderField in w;
  }

  /** A full create-update body must carry every required post field, and the
      post takes the submitted values. */
  lemma FullPostBodyFields(x: Post, body: Body)
    ensures var r := ApplyPostBody(PostCreateUpdate, x, body, false);
      r.Ok? ==>
        && "title" in body && body["title"] == JText(r.value.title)
        && "content" in body && body["content"] == JText(r.value.content)
        && "media_attachments" in body && body["media_attachments"] == JText(r.value.mediaAttachments)
  {
    var w := PostWritable(PostCreateUpdate);
    assert TitleField in w && ContentField in w && MediaField in w;
  }

  /** A profile PATCH with an empty body changes nothing. */
  lemma EmptyProfilePatchKeeps(users: set<UserId>, shape: ProfileShape, p: Profile)
    ensures ApplyProfileBody(users, shape, p, map[], true) == Ok(p)
  {
  }

  /** A post PATCH with an empty body changes nothing. */
  lemma EmptyPostPatchKeeps(shape: PostShape, x: Post)
    ensures ApplyPostBody(shape, x, map[], true) == Ok(x)
  {
  }

  /** An `author` key never changes what a post body applies. */
  lemma PostBodyIgnoresAuthor(shape: PostShape, x: Post, body: Body, partial: bool, author: Json)
    ensures ApplyPostBody(shape, x, body["author" := author], partial) == ApplyPostBody(shape, x, body, partial)
  {
    var forged := body["author" := author];
    forall f | f in PostWritable(shape)
      ensures SameKey(forged, body, PostFieldName(f))
    {
      var k := PostFieldName(f);
      assert k[0] != 'a';
    }
    PostBodyIgnoresReadOnly(shape, x, forged, body, partial);
  }

  /** Client-sent `id`, `author` and `profile` keys never change what a post body applies. */
  lemma PostBodyIgnoresOwnership(shape: PostShape, x: Post, body: Body, partial: bool, id: Json, author: Json, profile: Json)
    ensures ApplyPostBody(shape, x, body["id" := id]["author" := author]["profile" := profile], partial)
      == ApplyPostBody(shape, x, body, partial)
  {
    var forged := body["id" := id]["author" := author]["profile" := profile];
    forall f | f in PostWritable(shape)
      ensures SameKey(forged, body, PostFieldName(f))
    {
      var k := PostFieldName(f);
      assert k[0] != 'i' && k[0] != 'a' && k[0] != 'p';
    }
    PostBodyIgnoresReadOnly(shape, x, forged, body, partial);
  }

  /** Client-sent `id` and `user` keys never change what a profile body applies. */
  lemma ProfileBodyIgnoresOwnership(users: set<UserId>, shape: ProfileShape, p: Profile, body: Body, partial: bool, id: Json, user: Json)
    ensures ApplyProfileBody(users, shape, p, body["id" := id]["user" := user], partial)
      == ApplyProfileBody(users, shape, p, body, partial)
  {
    var forged := body["id" := id]["user" := user];
    forall f | f in ProfileWritable(shape)
      ensures SameKey(forged, body, ProfileFieldName(f))
    {
      var k := ProfileFieldName(f);
      assert k[0] != 'i' && k[0] != 'u';
    }
    ProfileBodyIgnoresReadOnly(users, shape, p, forged, body, partial);
  }

  /** The partial-update body as the code behaves: `author` on PostSerializer is a
      writable CharField (blank not allowed) whose source is `profile.full_name`.
      A string or a number (which the field turns into a string) passes
      validation, and saving such a nested value is then refused by the
      framework; a blank string or a list fails validation of `author`. */
  function ApplyPostBodyAsWritten(shape: PostShape, x: Post, body: Body, partial: bool): (r: Result<Post>)
    ensures shape == PostFull && "author" in body ==> r.Err?
    ensures shape == PostFull && "author" in body && (body["author"] == JText("") || body["author"].JIds?) ==>
      r == Err(ValidationFailed("author"))
    ensures shape == PostFull && "author" in body && body["author"] != JText("") && !body["author"].JIds? ==>
      (PostBodyAdmissible(shape, body, partial) <==> r == Err(NestedWriteRejected("author")))
    ensures !(shape == PostFull && "author" in body) && (partial || shape != PostFull) ==> r == ApplyPostBody(shape, x, body, partial)
  {
    if shape == PostFull && "author" in body then
      match body["author"]
      case JIds(_) => Err(ValidationFailed("author"))
      case _ =>
        if body["author"] == JText("") then Err(ValidationFailed("author"))
        else
          var _ :- ApplyPostBody(shape, x, body, partial);
          Err(NestedWriteRejected("author"))
    else if shape == PostFull && !partial then
      Err(ValidationFailed("author"))
    else
      ApplyPostBody(shape, x, body, partial)
  }
}

=== FILE: text.dfy ===
/** Text matching used by the query filters: ASCII case folding and
    substring search, the meaning of the ORM's `icontains` lookup. */
module Text {

  /** ASCII lower-casing of one character; any other character is unchanged. */
  function Lower(c: char): char {
    if 'A' <= c <= 'Z' then (c as int - 'A' as int + 'a' as int) as char else c
  }

  function LowerStr(s: string): string {
    seq(|s|, i requires 0 <= i < |s| => Lower(s[i]))
  }

  /** `t` occurs in `s` starting at offset `i`. */
  predicate OccursAt(s: string, t: string, i: nat) {
    i + |t| <= |s| && s[i..i + |t|] == t
  }

  /** Substring test, characterised by the existence of an occurrence. */
  function Contains(s: string, t: string): (b: bool)
    ensures b <==> exists i: nat :: OccursAt(s, t, i)
    decreases |s|
  {
    if |t| <= |s| && s[..|t|] == t then
      assert OccursAt(s, t, 0);
      true
    else if |s| == 0 then
      false
    else
      var b := Contains(s[1..], t);
      assert b ==> exists i: nat :: OccursAt(s, t, i) by {
        if b {
          var i: nat :| OccursAt(s[1..], t, i);
          assert s[1..][i..i + |t|] == s[i + 1..i + 1 + |t|];
          assert OccursAt(s, t, i + 1);
        }
      }
      assert (exists i: nat :: OccursAt(s, t, i)) ==> b by {
        if exists i: nat :: OccursAt(s, t, i) {
          var i: nat :| OccursAt(s, t, i);
          assert i != 0;
          assert s[1..][i - 1..i - 1 + |t|] == s[i..i + |t|];
          assert OccursAt(s[1..], t, i - 1);
        }
      }
      b
  }

  /** Case-insensitive substring test (`field__icontains=value`): `t` occurs
      in `s` once both are lower-cased. */
  predicate IContains(s: string, t: string) {
    Contains(LowerStr(s), LowerStr(t))
  }

  lemma LowerStrIdempotent(s: string)
    ensures LowerStr(LowerStr(s)) == LowerStr(s)
  {
    assert forall i :: 0 <= i < |s| ==> Lower(Lower(s[i])) == Lower(s[i]);
  }

  /** Every value contains itself, whatever its case. */
  lemma IContainsSelf(s: string)
    ensures IContains(s, s)
  {
    assert OccursAt(LowerStr(s), LowerStr(s), 0);
  }

  /** A parameter longer than the field value never matches. */
  lemma IContainsTooLong(s: string, t: string)
    requires |t| > |s|
    ensures !IContains(s, t)
  {
  }

  /** Matching is insensitive to the case of both the value and the parameter. */
  lemma IContainsIgnoresCase(s: string, t: string)
    ensures IContains(LowerStr(s), t) == IContains(s, t)
    ensures IContains(s, LowerStr(t)) == IContains(s, t)
  {
    LowerStrIdempotent(s);
    LowerStrIdempotent(t);
  }
}

=== FILE: views.dfy ===
/** The two viewsets of `social/views.py` as request pipelines over a store:
    the serializer each action uses, list and retrieve, and the writes with
    their `perform_create` stamping. A write either fails, which leaves the
    store as it was, or yields a new store that is again valid. */
module Views {

  import opened Outcomes
  import opened Seqs
  import opened Models
  import opened Permissions
  import opened Queries
  import opened Serializers

  /** The actions the router dispatches to a model viewset. */
  datatype Action = List | Retrieve | Create | Update | PartialUpdate | Destroy

  /** The HTTP method each action is routed from. */
  function Verb(a: Action): string {
    match a
    case List => "GET"
    case Retrieve => "GET"
    case Create => "POST"
    case Update => "PUT"
    case PartialUpdate => "PATCH"
    case Destroy => "DELETE"
  }

  /** Exactly the read actions are routed from safe methods. */
  lemma SafeVerbs()
    ensures forall a :: Verb(a) in SafeMethods <==> a == List || a == Retrieve
  {
    forall a: Action
      ensures Verb(a) in SafeMethods <==> a == List || a == Retrieve
    {
      match a
      case List =>
      case Retrieve =>
      case Create => assert Verb(a)[1] == 'O';
      case Update => assert Verb(a)[1] == 'U';
      case PartialUpdate => assert Verb(a)[1] == 'A';
      case Destroy => assert Verb(a)[1] == 'E';
    }
  }

  /** A successful save: the new store and the object as saved. */
  datatype Saved<T> = Saved(store: Store, obj: T)

  /** `ProfileViewSet.get_serializer_class`: the detail serializer for
      retrieve, the create-update one for create and update, and the class
      default (the summary) for everything else, partial updates included. */
  function ProfileShapeFor(a: Action): (r: ProfileShape)
    ensures r == ProfileDetail <==> a == Retrieve
    ensures r == ProfileCreateUpdate <==> a == Create || a == Update
    ensures r == ProfileSummary <==> a == List || a == PartialUpdate || a == Destroy
  {
    match a
    case Retrieve => ProfileDetail
    case Create => ProfileCreateUpdate
    case Update => ProfileCreateUpdate
    case _ => ProfileSummary
  }

  /** `PostViewSet.get_serializer_class`: retrieve names the class default
      explicitly, so only create and update differ from it. */
  function PostShapeFor(a: Action): (r: PostShape)
    ensures r == PostCreateUpdate <==> a == Create || a == Update
    ensures r == PostFull <==> !(a == Create || a == Update)
  {
    if a == Retrieve then PostFull
    else if a == Create || a == Update then PostCreateUpdate
    else PostFull
  }

  /** A partial update uses the list serializer, so a profile PATCH can only
      change `avatar` and `gender`; no action lets the client write ownership. */
  lemma ActionShapes()
    ensures ProfileShapeFor(PartialUpdate) == ProfileShapeFor(List)
    ensures ProfileWritable(ProfileShapeFor(PartialUpdate)) == {AvatarField, GenderField}
    ensures PostShapeFor(Retrieve) == PostShapeFor(List) == PostShapeFor(PartialUpdate)
    ensures forall a :: ProfileUser !in ProfileWritable(ProfileShapeFor(a))
    ensures forall a :: AuthorField !in PostWritable(PostShapeFor(a)) && PostProfileField !in PostWritable(PostShapeFor(a))
  {
    OwnershipNeverWritable();
  }

  // ---------------------------------------------------------------------
  // Reads

  /** A row of the profile list: the summary shape, which cannot fail. */
  function SummaryRow(s: Store, p: Profile): (r: Rendered)
    requires Keyed(s)
    ensures Get(r, "id") == Some(Num(p.id))
    ensures Get(r, "full_name") == Some(Text(FullName(p)))
    ensures Get(r, "followers_count") == Some(Num(|set o | o in s.profiles && p.user in o.following|))
    ensures Get(r, "posts_count") == Some(Num(|set x | x in s.posts && x.profile == p.id|))
  {
    SummaryValues(s, p);
    RenderProfile(s, ProfileShapeFor(List), p).value
  }

  /** `list` on profiles: the filtered queryset, each profile as a summary row. */
  function ListProfiles(s: Store, q: ProfileQuery): (r: seq<Rendered>)
    requires Keyed(s)
    ensures |r| == |ProfileQueryset(s.profiles, q)|
    ensures forall i :: 0 <= i < |r| ==>
      var p := ProfileQueryset(s.profiles, q)[i];
      && Get(r[i], "id") == Some(Num(p.id))
      && Get(r[i], "full_name") == Some(Text(FullName(p)))
      && Get(r[i], "followers_count") == Some(Num(|set o | o in s.profiles && p.user in o.following|))
      && Get(r[i], "posts_count") == Some(Num(|set x | x in s.posts && x.profile == p.id|))
  {
    var ps := ProfileQueryset(s.profiles, q);
    seq(|ps|, i requires 0 <= i < |ps| => SummaryRow(s, ps[i]))
  }

  /** A row of the post list (and the post detail): the full shape. */
  function FullRow(s: Store, x: Post): (r: Rendered)
    requires Valid(s) && x in s.posts
    ensures Get(r, "id") == Some(Num(x.id))
    ensures ProfileOfUser(s.profiles, x.author).Some?
    ensures Get(r, "author") == Some(Text(FullName(ProfileOfUser(s.profiles, x.author).value)))
  {
    PostAuthorLabel(s, x);
    var r := RenderPost(s, PostShapeFor(List), x);
    assert r[0].0 == "id";
    GetAt(r, 0);
    r
  }

  /** Every row of the post queryset is a stored post. */
  lemma PostRowsFromStore(s: Store, q: PostQuery)
    ensures forall i :: 0 <= i < |PostQueryset(s.posts, q)| ==> PostQueryset(s.posts, q)[i] in s.posts
  {
  }

  /** `list` on posts: the filtered queryset, newest first, each post in the
      full shape with its author's full name. */
  function ListPosts(s: Store, q: PostQuery): (r: seq<Rendered>)
    requires Valid(s)
    ensures |r| == |PostQueryset(s.posts, q)|
    ensures forall i :: 0 <= i < |r| ==>
      && Get(r[i], "id") == Some(Num(PostQueryset(s.posts, q)[i].id))
      && ProfileOfUser(s.profiles, PostQueryset(s.posts, q)[i].author).Some?
      && Get(r[i], "author") == Some(Text(FullName(ProfileOfUser(s.profiles, PostQueryset(s.posts, q)[i].author).value)))
  {
    var xs := PostQueryset(s.posts, q);
    PostRowsFromStore(s, q);
    seq(|xs|, i requires 0 <= i < |xs| => FullRow(s, xs[i]))
  }

  /** `get_object` on profiles: the id is looked up in the filtered queryset. */
  function FindProfile(s: Store, q: ProfileQuery, id: nat): (r: Result<Profile>)
    ensures r.Ok? ==> r.value in ProfileQueryset(s.profiles, q) && r.value.id == id
    ensures r.Err? <==> forall p :: p in ProfileQueryset(s.profiles, q) ==> p.id != id
    ensures r.Err? ==> r.error == NotFound
  {
    FromOption(ProfileById(ProfileQueryset(s.profiles, q), id), NotFound)
  }

  /** `get_object` on posts. */
  function FindPost(s: Store, q: PostQuery, id: nat): (r: Result<Post>)
    ensures r.Ok? ==> r.value in PostQueryset(s.posts, q) && r.value.id == id
    ensures r.Err? <==> forall x :: x in PostQueryset(s.posts, q) ==> x.id != id
    ensures r.Err? ==> r.error == NotFound
  {
    FromOption(PostById(PostQueryset(s.posts, q), id), NotFound)
  }

  /** `retrieve` on profiles: never forbidden, whoever asks; it fails only for
      an unknown id or a followed user without a profile. */
  function RetrieveProfile(s: Store, actor: UserId, q: ProfileQuery, id: nat): (r: Result<Rendered>)
    requires Keyed(s)
    ensures r.Err? ==> r.error == NotFound || r.error == ProfileMissing
    ensures r.Err? && r.error == NotFound <==> forall p :: p in ProfileQueryset(s.profiles, q) ==> p.id != id
    ensures r.Ok? <==> FindProfile(s, q, id).Ok? && FollowedHaveProfiles(s, FindProfile(s, q, id).value)
    ensures r.Ok? ==> Ok(r.value) == RenderProfile(s, ProfileDetail, FindProfile(s, q, id).value)
    ensures r.Ok? ==> Get(r.value, "id") == Some(Num(id))
  {
    var p :- FindProfile(s, q, id);
    SafeVerbs();
    if ProfilePermission(Verb(Retrieve), actor, p) == Deny then Err(Forbidden)
    else
      match RenderProfile(s, ProfileShapeFor(Retrieve), p)
      case Ok(v) =>
        assert v[0].0 == "id";
        GetAt(v, 0);
        Ok(v)
      case Err(e) => Err(e)
  }

  /** `retrieve` on posts: never forbidden; fails only for an unknown id. */
  function RetrievePost(s: Store, actor: UserId, q: PostQuery, id: nat): (r: Result<Rendered>)
    requires Valid(s)
    ensures r.Err? <==> forall x :: x in PostQueryset(s.posts, q) ==> x.id != id
    ensures r.Err? ==> r.error == NotFound
    ensures r.Ok? ==> Get(r.value, "id") == Some(Num(id))
    ensures r.Ok? ==> FindPost(s, q, id).Ok? && ProfileOfUser(s.profiles, FindPost(s, q, id).value.author).Some?
    ensures r.Ok? ==>
      Get(r.value, "author") == Some(Text(FullName(ProfileOfUser(s.profiles, FindPost(s, q, id).value.author).value)))
  {
    var x :- FindPost(s, q, id);
    SafeVerbs();
    if PostPermission(Verb(Retrieve), actor, x) == Deny then Err(Forbidden)
    else Ok(FullRow(s, x))
  }

  // ---------------------------------------------------------------------
  // Creation

  /** A profile with no field set yet, owned by `user`. */
  function BlankProfile(id: nat, user: UserId): Profile {
    Profile(id, user, "", "", "", "", Unknown, {})
  }

  /** A post with no field set yet, stamped with `author` and the clock reading. */
  function BlankPost(id: nat, author: UserId, now: nat): Post {
    Post(id, author, "", "", "", now, 0, "")
  }

  /** `create` on profiles: the body is validated with the create serializer,
      then `perform_create` saves it with `user=request.user`. The one-to-one
      link refuses a second profile for the same user. */
  function CreateProfile(s: Store, actor: UserId, body: Body): (r: Result<Saved<Profile>>)
    requires Valid(s) && actor in s.users
    ensures r.Ok? ==> Valid(r.value.store) && r.value.obj.user == actor
    ensures r.Ok? ==> r.value.obj.id == s.profileSeq && r.value.store.profileSeq == s.profileSeq + 1
    ensures r.Ok? && Bounded(s) ==> Bounded(r.value.store)
    ensures r.Ok? ==> ProfileOfUser(r.value.store.profiles, actor) == Some(r.value.obj)
    ensures r.Ok? ==> forall o :: o in r.value.store.profiles <==> o in s.profiles || o == r.value.obj
    ensures r.Ok? ==> r.value.store.posts == s.posts && r.value.store.users == s.users
    ensures r.Ok? ==> "first_name" in body && body["first_name"] == JText(r.value.obj.firstName)
    ensures ProfileOfUser(s.profiles, actor).Some? ==> r.Err?
    ensures ProfileOfUser(s.profiles, actor).None? ==>
      (r.Ok? <==> ProfileBodyAdmissible(s.users, ProfileShapeFor(Create), body, false))
    ensures r.Ok? ==>
      Ok(r.value.obj) == ApplyProfileBody(s.users, ProfileShapeFor(Create), BlankProfile(s.profileSeq, actor), body, false)
    ensures r.Err? ==> r.error == ProfileExists || r.error.ValidationFailed?
  {
    var blank := BlankProfile(s.profileSeq, actor);
    FullProfileBodyFields(s.users, blank, body);
    var p :- ApplyProfileBody(s.users, ProfileShapeFor(Create), blank, body, false);
    if ProfileOfUser(s.profiles, actor).Some? then Err(ProfileExists)
    else
      ProfileBodyValid(s.users, ProfileShapeFor(Create), blank, body, false);
      Ok(Saved(AddProfile(s, p), p))
  }

  /** `create` on posts: the body is validated with the create serializer,
      then `perform_create` looks up the caller's profile and saves the post
      with `author=request.user` and that profile. */
  function CreatePost(s: Store, actor: UserId, body: Body, now: nat): (r: Result<Saved<Post>>)
    requires Valid(s)
    ensures r.Ok? ==> Valid(r.value.store)
    ensures r.Ok? && Bounded(s) ==> Bounded(r.value.store)
    ensures r.Ok? ==> r.value.obj.author == actor && r.value.obj.createdAt == now
    ensures r.Ok? ==> r.value.obj.id == s.postSeq && r.value.store.postSeq == s.postSeq + 1
    ensures r.Ok? ==> ProfileOfUser(s.profiles, actor).Some?
    ensures r.Ok? ==> r.value.obj.profile == ProfileOfUser(s.profiles, actor).value.id
    ensures r.Ok? ==> forall o :: o in r.value.store.posts <==> o in s.posts || o == r.value.obj
    ensures r.Ok? ==> r.value.store.profiles == s.profiles && r.value.store.users == s.users
    ensures r.Ok? ==> "title" in body && body["title"] == JText(r.value.obj.title)
    ensures ProfileOfUser(s.profiles, actor).None? ==> r.Err?
    ensures ProfileOfUser(s.profiles, actor).Some? ==> (r.Ok? <==> PostBodyAdmissible(PostShapeFor(Create), body, false))
    ensures r.Ok? ==>
      && ApplyPostBody(PostShapeFor(Create), BlankPost(s.postSeq, actor, now), body, false).Ok?
      && r.value.obj
         == ApplyPostBody(PostShapeFor(Create), BlankPost(s.postSeq, actor, now), body, false).value.(profile := ProfileOfUser(s.profiles, actor).value.id)
    ensures r.Err? ==> r.error == ProfileMissing || r.error.ValidationFailed?
  {
    var blank := BlankPost(s.postSeq, actor, now);
    FullPostBodyFields(blank, body);
    var x :- ApplyPostBody(PostShapeFor(Create), blank, body, false);
    var owner :- FromOption(ProfileOfUser(s.profiles, actor), ProfileMissing);
    var post := x.(profile := owner.id);
    PostBodyValid(PostShapeFor(Create), blank, body, false);
    ProfileByIdFinds(s.profiles, owner);
    Ok(Saved(AddPost(s, post), post))
  }

  /** Whatever `id` and `user` the client sends, the new profile is the caller's. */
  lemma CreateProfileIgnoresClientOwnership(s: Store, actor: UserId, body: Body, id: Json, user: Json)
    requires Valid(s) && actor in s.users
    ensures CreateProfile(s, actor, body["id" := id]["user" := user]) == CreateProfile(s, actor, body)
  {
    ProfileBodyIgnoresOwnership(s.users, ProfileCreateUpdate, BlankProfile(s.profileSeq, actor), body, false, id, user);
  }

  /** Whatever `id`, `author` and `profile` the client sends, the new post is
      stamped with the caller and the caller's profile. */
  lemma CreatePostIgnoresClientOwnership(s: Store, actor: UserId, body: Body, now: nat, id: Json, author: Json, profile: Json)
    requires Valid(s)
    ensures CreatePost(s, actor, body["id" := id]["author" := author]["profile" := profile], now)
      == CreatePost(s, actor, body, now)
  {
    PostBodyIgnoresOwnership(PostCreateUpdate, BlankPost(s.postSeq, actor, now), body, false, id, author, profile);
  }

  // ---------------------------------------------------------------------
  // Updates and deletions

  /** The action behind an update request. */
  function UpdateAction(partial: bool): Action {
    if partial then PartialUpdate else Update
  }

  /** With unique ids, the profile `get_object` finds is the one with that id. */
  lemma FindProfileIsUnique(s: Store, q: ProfileQuery, p: Profile)
    requires UniqueProfileIds(s.profiles)
    requires p in ProfileQueryset(s.profiles, q)
    ensures FindProfile(s, q, p.id) == Ok(p)
  {
    var r := FindProfile(s, q, p.id);
    ProfileByIdFinds(s.profiles, p);
    ProfileByIdFinds(s.profiles, r.value);
  }

  /** With unique ids, the post `get_object` finds is the one with that id. */
  lemma FindPostIsUnique(s: Store, q: PostQuery, x: Post)
    requires UniquePostIds(s.posts)
    requires x in PostQueryset(s.posts, q)
    ensures FindPost(s, q, x.id) == Ok(x)
  {
    var r := FindPost(s, q, x.id);
    PostByIdFinds(s.posts, x);
    PostByIdFinds(s.posts, r.value);
  }

  /** `update` (PUT) and `partial_update` (PATCH) on profiles: look the id up
      in the filtered queryset, check the object permission, validate the body
      with the action's serializer, save. */
  function UpdateProfile(s: Store, actor: UserId, q: ProfileQuery, id: nat, body: Body, partial: bool): (r: Result<Saved<Profile>>)
    requires Valid(s)
    ensures r.Ok? ==> Valid(r.value.store)
    ensures r.Ok? && Bounded(s) ==> Bounded(r.value.store)
    ensures r.Ok? ==> r.value.obj.id == id && r.value.obj.user == actor
    ensures r.Ok? ==> FindProfile(s, q, id).Ok? && FindProfile(s, q, id).value.user == actor
    ensures r.Ok? ==> forall o :: o in r.value.store.profiles <==> (o in s.profiles && o.id != id) || o == r.value.obj
    ensures r.Ok? ==> r.value.store.posts == s.posts && r.value.store.users == s.users
    ensures FindProfile(s, q, id).Err? ==> r == Err(NotFound)
    ensures FindProfile(s, q, id).Ok? && FindProfile(s, q, id).value.user != actor ==> r == Err(Forbidden)
    ensures FindProfile(s, q, id).Ok? && FindProfile(s, q, id).value.user == actor ==>
      (r.Ok? <==> ProfileBodyAdmissible(s.users, ProfileShapeFor(UpdateAction(partial)), body, partial))
    ensures r.Ok? ==>
      Ok(r.value.obj) == ApplyProfileBody(s.users, ProfileShapeFor(UpdateAction(partial)), FindProfile(s, q, id).value, body, partial)
    ensures r.Err? ==> r.error == NotFound || r.error == Forbidden || r.error.ValidationFailed?
  {
    var a := UpdateAction(partial);
    var p :- FindProfile(s, q, id);
    SafeVerbs();
    if ProfilePermission(Verb(a), actor, p) == Deny then Err(Forbidden)
    else
      var p2 :- ApplyProfileBody(s.users, ProfileShapeFor(a), p, body, partial);
      ProfileByIdFinds(s.profiles, p);
      ProfileBodyValid(s.users, ProfileShapeFor(a), p, body, partial);
      Ok(Saved(ReplaceProfile(s, p2), p2))
  }

  /** `update` and `partial_update` on posts. */
  function UpdatePost(s: Store, actor: UserId, q: PostQuery, id: nat, body: Body, partial: bool): (r: Result<Saved<Post>>)
    requires Valid(s)
    ensures r.Ok? ==> Valid(r.value.store)
    ensures r.Ok? && Bounded(s) ==> Bounded(r.value.store)
    ensures r.Ok? ==> r.value.obj.id == id && r.value.obj.author == actor
    ensures r.Ok? ==> FindPost(s, q, id).Ok? && FindPost(s, q, id).value.author == actor
    ensures r.Ok? ==> r.value.obj.profile == FindPost(s, q, id).value.profile
    ensures r.Ok? ==> r.value.obj.createdAt == FindPost(s, q, id).value.createdAt
    ensures r.Ok? ==> forall o :: o in r.value.store.posts <==> (o in s.posts && o.id != id) || o == r.value.obj
    ensures r.Ok? ==> r.value.store.profiles == s.profiles && r.value.store.users == s.users
    ensures FindPost(s, q, id).Err? ==> r == Err(NotFound)
    ensures FindPost(s, q, id).Ok? && FindPost(s, q, id).value.author != actor ==> r == Err(Forbidden)
    ensures FindPost(s, q, id).Ok? && FindPost(s, q, id).value.author == actor ==>
      (r.Ok? <==> PostBodyAdmissible(PostShapeFor(UpdateAction(partial)), body, partial))
    ensures r.Ok? ==>
      Ok(r.value.obj) == ApplyPostBody(PostShapeFor(UpdateAction(partial)), FindPost(s, q, id).value, body, partial)
    ensures r.Err? ==> r.error == NotFound || r.error == Forbidden || r.error.ValidationFailed?
  {
    var a := UpdateAction(partial);
    var x :- FindPost(s, q, id);
    SafeVerbs();
    if PostPermission(Verb(a), actor, x) == Deny then Err(Forbidden)
    else
      var x2 :- ApplyPostBody(PostShapeFor(a), x, body, partial);
      PostByIdFinds(s.posts, x);
      PostBodyValid(PostShapeFor(a), x, body, partial);
      Ok(Saved(ReplacePost(s, x2), x2))
  }

  /** `destroy` on profiles; the cascade removes the profile's posts. */
  function DestroyProfile(s: Store, actor: UserId, q: ProfileQuery, id: nat): (r: Result<Store>)
    requires Valid(s)
    ensures r.Ok? ==> Valid(r.value)
    ensures r.Ok? && Bounded(s) ==> Bounded(r.value)
    ensures r.Ok? ==> FindProfile(s, q, id).Ok? && FindProfile(s, q, id).value.user == actor
    ensures r.Ok? ==> forall o :: o in r.value.profiles <==> o in s.profiles && o.id != id
    ensures r.Ok? ==> forall x :: x in r.value.posts <==> x in s.posts && x.profile != id
    ensures r.Ok? ==> r.value.profileSeq == s.profileSeq && r.value.postSeq == s.postSeq
    ensures FindProfile(s, q, id).Err? ==> r == Err(NotFound)
    ensures FindProfile(s, q, id).Ok? && FindProfile(s, q, id).value.user != actor ==> r == Err(Forbidden)
    ensures FindProfile(s, q, id).Ok? && FindProfile(s, q, id).value.user == actor ==> r.Ok?
  {
    var p :- FindProfile(s, q, id);
    SafeVerbs();
    if ProfilePermission(Verb(Destroy), actor, p) == Deny then Err(Forbidden)
    else Ok(RemoveProfile(s, id))
  }

  /** `destroy` on posts. */
  function DestroyPost(s: Store, actor: UserId, q: PostQuery, id: nat): (r: Result<Store>)
    requires Valid(s)
    ensures r.Ok? ==> Valid(r.value)
    ensures r.Ok? && Bounded(s) ==> Bounded(r.value)
    ensures r.Ok? ==> FindPost(s, q, id).Ok? && FindPost(s, q, id).value.author == actor
    ensures r.Ok? ==> forall o :: o in r.value.posts <==> o in s.posts && o.id != id
    ensures r.Ok? ==> r.value.profiles == s.profiles
    ensures r.Ok? ==> r.value.profileSeq == s.profileSeq && r.value.postSeq == s.postSeq
    ensures FindPost(s, q, id).Err? ==> r == Err(NotFound)
    ensures FindPost(s, q, id).Ok? && FindPost(s, q, id).value.author != actor ==> r == Err(Forbidden)
    ensures FindPost(s, q, id).Ok? && FindPost(s, q, id).value.author == actor ==> r.Ok?
  {
    var x :- FindPost(s, q, id);
    SafeVerbs();
    if PostPermission(Verb(Destroy), actor, x) == Deny then Err(Forbidden)
    else Ok(RemovePost(s, id))
  }

  /** A write to a profile someone else owns is refused, whatever the body. */
  lemma NonOwnerProfileWritesForbidden(s: Store, actor: UserId, q: ProfileQuery, p: Profile, body: Body, partial: bool)
    requires Valid(s)
    requires p in ProfileQueryset(s.profiles, q) && p.user != actor
    ensures UpdateProfile(s, actor, q, p.id, body, partial) == Err(Forbidden)
    ensures DestroyProfile(s, actor, q, p.id) == Err(Forbidden)
  {
    FindProfileIsUnique(s, q, p);
  }

  /** A write to a post someone else wrote is refused, whatever the body. */
  lemma NonOwnerPostWritesForbidden(s: Store, actor: UserId, q: PostQuery, x: Post, body: Body, partial: bool)
    requires Valid(s)
    requires x in PostQueryset(s.posts, q) && x.author != actor
    ensures UpdatePost(s, actor, q, x.id, body, partial) == Err(Forbidden)
    ensures DestroyPost(s, actor, q, x.id) == Err(Forbidden)
  {
    FindPostIsUnique(s, q, x);
  }

  /** The id sequence never hands out a deleted profile's id again: a profile
      created after a deletion gets a new id. */
  lemma DeletedProfileIdNotReused(s: Store, actor: UserId, q: ProfileQuery, id: nat, creator: UserId, body: Body)
    requires Valid(s) && creator in s.users
    requires DestroyProfile(s, actor, q, id).Ok?
    ensures var s2 := DestroyProfile(s, actor, q, id).value;
      CreateProfile(s2, creator, body).Ok? ==> CreateProfile(s2, creator, body).value.obj.id > id
  {
    var p := FindProfile(s, q, id).value;
    assert p in s.profiles;
  }

  /** The same for posts. */
  lemma DeletedPostIdNotReused(s: Store, actor: UserId, q: PostQuery, id: nat, writer: UserId, body: Body, now: nat)
    requires Valid(s)
    requires DestroyPost(s, actor, q, id).Ok?
    ensures var s2 := DestroyPost(s, actor, q, id).value;
      CreatePost(s2, writer, body, now).Ok? ==> CreatePost(s2, writer, body, now).value.obj.id > id
  {
    var x := FindPost(s, q, id).value;
    assert x in s.posts;
  }

  /** An update never moves a post to another author or profile: the
      ownership keys of the body are ignored. */
  lemma UpdatePostIgnoresClientOwnership(s: Store, actor: UserId, q: PostQuery, id: nat, body: Body, partial: bool, newId: Json, author: Json, profile: Json)
    requires Valid(s)
    ensures UpdatePost(s, actor, q, id, body["id" := newId]["author" := author]["profile" := profile], partial)
      == UpdatePost(s, actor, q, id, body, partial)
  {
    match FindPost(s, q, id)
    case Ok(x) =>
      PostBodyIgnoresOwnership(PostShapeFor(UpdateAction(partial)), x, body, partial, newId, author, profile);
    case Err(_) =>
  }

  /** An `author` key alone never changes the outcome of a post update. */
  lemma UpdatePostIgnoresAuthor(s: Store, actor: UserId, q: PostQuery, id: nat, body: Body, partial: bool, author: Json)
    requires Valid(s)
    ensures UpdatePost(s, actor, q, id, body["author" := author], partial) == UpdatePost(s, actor, q, id, body, partial)
  {
    match FindPost(s, q, id)
    case Ok(x) =>
      PostBodyIgnoresAuthor(PostShapeFor(UpdateAction(partial)), x, body, partial, author);
    case Err(_) =>
  }

  /** The owner's PATCH with an empty body succeeds and returns the post unchanged. */
  lemma OwnerEmptyPatchKeepsPost(s: Store, q: PostQuery, x: Post)
    requires Valid(s) && x in PostQueryset(s.posts, q)
    ensures var r := UpdatePost(s, x.author, q, x.id, map[], true);
      r.Ok? && r.value.obj == x
  {
    FindPostIsUnique(s, q, x);
    EmptyPostPatchKeeps(PostShapeFor(UpdateAction(true)), x);
  }

  /** `partial_update` on posts as the code behaves: the list serializer's
      declared `author` field is writable, so a body carrying it fails. */
  function PartialUpdatePostAsWritten(s: Store, actor: UserId, q: PostQuery, id: nat, body: Body): (r: Result<Saved<Post>>)
    requires Valid(s)
    ensures "author" !in body ==> r == UpdatePost(s, actor, q, id, body, true)
    ensures "author" in body ==> r.Err?
  {
    var x :- FindPost(s, q, id);
    SafeVerbs();
    if PostPermission(Verb(PartialUpdate), actor, x) == Deny then Err(Forbidden)
    else
      var x2 :- ApplyPostBodyAsWritten(PostShapeFor(PartialUpdate), x, body, true);
      PostByIdFinds(s.posts, x);
      PostBodyValid(PostShapeFor(PartialUpdate), x, body, true);
      Ok(Saved(ReplacePost(s, x2), x2))
  }
}
